=== FILE: README.md ===
# Sketch–Crowdin plugin core, modelled in Dafny

This project models the sequential logic of the Crowdin plugin for Sketch. Each part is a set of pure functions over immutable values, with contracts and lemmas about them:

- **ZIP entry decoder** (the plugin's copy of adm-zip, `zipEntry.js`):
  - the table-driven CRC-32;
  - the CRC check that the data-descriptor flag switches off;
  - the walk over the `(id, size, payload)` records of the extra field;
  - the Zip64 override of the header's size, compressed size, offset and starting disk;
  - directory detection from the raw entry name;
  - the `decompress` dispatch (directory, no data, STORED, DEFLATED, unknown method), both synchronous and with a callback;
  - the `setData`/`getData` "changed" short-circuit.
- **Translated-element registry** (`local-storage.js`). A document setting holds `source=>translated` pairs joined by `,`, and a second setting lists the generated ids. The model covers add, remove (its settings part) and list over a `map<string, string>`.
- **Source-string normalisation and pagination** (`client.js`):
  - the plural-form fallback `one`, `zero`, `two`, `few`, `many`, `other`;
  - dropping empty strings;
  - the recursion over 500-item pages that stops past offset 4000.
- **Label truncation** (`string.js`): `truncateLongText`.
- **Screenshot tag reconciliation** (`upload-screenshots.js`). The tags stored in a document are filtered against the live string ids, the non-generated artboards, the pages and the text elements. The survivors are then grouped by artboard.
- **Settings logic** (`action/settings.js`, `settings.js`, `constants.js`):
  - token masking, and the rule that the mask never overwrites the stored token;
  - document-only savers;
  - default values and key-pattern selection;
  - the connect flow;
  - the `name [id]` project label and its parse-back.

The model follows JavaScript's semantics in these respects (string length is the exception; see "## Left out"):

- `split`/`join` (`Strings`);
- `parseInt` with no radix and the decimal text a template literal prints (`Numbers`);
- truthiness;
- `Buffer.slice` clamping;
- the unsigned reading of 32-bit bitwise results (`Bytes`, where a word is an integer in [0, 2^32) and XOR is defined bit by bit).

The host's settings are a global store plus an optional store for the selected document (`SettingsStore`). User answers to prompts, the pages the REST API returns, the text elements of an artboard and the DEFLATE inflater are all parameters.

Modules, one per file: `Wrappers`, `Bytes`, `Crc32`, `ZipExtra`, `ZipEntry`, `Strings`, `Numbers`, `LocalStorage`, `Client`, `TextUtil`, `Screenshots`, `Constants`, `SettingsStore`, `SettingsActions`, `SettingsPrompts`.

## Model

| member | source | states |
|---|---|---|
| Crc32.BuildTable | src/adm-zip/zipEntry.js:198-209 | The table has 256 entries, and entry `n` is eight rounds of the reflected shift register with polynomial 0xEDB88320, started at `n`. |
| Crc32.ComputeChecksum | src/adm-zip/zipEntry.js:193-215 | `crc32` returns the complement of the register obtained by folding every byte through the table from the all-ones preset. |
| Crc32.Checksum | src/adm-zip/zipEntry.js:210-214 | The CRC of an empty buffer is 0. |
| Crc32.RegisterIsBitwise | src/adm-zip/zipEntry.js:199-214 | For every input, the table-driven fold equals the bit-at-a-time CRC-32 register (XOR the byte in, then eight rounds), so the checksum is the CRC-32 of the data. |
| Crc32.StepIsEightRounds | src/adm-zip/zipEntry.js:211 | One table step, `table[(c ^ b) & 0xff] ^ (c >>> 8)`, is the byte XORed into the register followed by eight shift rounds. |
| Crc32.RoundsXor | src/adm-zip/zipEntry.js:201-202 | The shift-register rounds distribute over XOR. |
| Crc32.ChecksumDetectsChange | src/adm-zip/zipEntry.js:193-215 | Changing any one byte of the data, and so any single bit, changes the register and the CRC-32. |
| Crc32.StepInjective | src/adm-zip/zipEntry.js:211 | A table step with the same register tells different bytes apart, and with the same byte it tells different registers apart. |
| Crc32.RoundInjective | src/adm-zip/zipEntry.js:201-202 | Two words give the same shift-register round exactly when they are equal. |
| Crc32.TableEntryZero | src/adm-zip/zipEntry.js:199-207 | Table entry 0 is 0. |
| Crc32.TableEntryMiddle | src/adm-zip/zipEntry.js:199-207 | Table entry 0x80 is the polynomial itself. |
| ZipExtra.ReadEncoded16 | src/adm-zip/zipEntry.js:151-153 | Reading a little-endian 16-bit field gives back the value that was encoded there. |
| ZipExtra.ReadEncoded32 | src/adm-zip/zipEntry.js:186 | Reading a little-endian 32-bit field gives back the value that was encoded there. |
| ZipExtra.ReadEncoded64 | src/adm-zip/zipEntry.js:143-145 | The corrected 64-bit reader inverts the 64-bit little-endian encoding for every value below 2^64. |
| ZipExtra.ReadUInt64LEAsWrittenMisreads | src/adm-zip/zipEntry.js:143-145 | With its static call read as the instance call, the reader returns 16 for the field that encodes 2^32. The corrected reader returns 2^32. |
| ZipExtra.ParseZip64AsWritten | src/adm-zip/zipEntry.js:143-170 | As written, the Zip64 parser throws exactly when the payload has 8 bytes or more, because its first 64-bit read calls a static `Buffer.readUInt32LE` that does not exist. It never changes the header. |
| ZipExtra.ParseExtraAsWrittenNeverOverrides | src/adm-zip/zipEntry.js:143-170 | As written, `parseExtra` never changes the header. It completes exactly when the field is not truncated and no Zip64 record in it has 8 or more payload bytes. |
| ZipExtra.Zip64SizeRecordThrowsAsWritten | src/adm-zip/zipEntry.js:143-170 | One Zip64 record with an 8-byte size, for a header whose size is the sentinel: as written the parse throws and the sentinel stays; the corrected parse installs the size. |
| ZipExtra.Slice | src/adm-zip/zipEntry.js:155 | `Buffer.slice` is the sub-range when the bounds lie in the buffer, empty when the start is past the end, and never longer than the buffer. |
| ZipExtra.ParseZip64 | src/adm-zip/zipEntry.js:164-191 | Only size, compressed size, offset and starting disk can change. A field changes only when it holds its sentinel (0xFFFFFFFF, or 0xFFFF for the disk). A field is left alone when the payload is shorter than 8, 16, 24 or 28 bytes respectively. |
| ZipExtra.Zip64Overrides | src/adm-zip/zipEntry.js:164-191 | With every field at its sentinel and a full 28-byte payload, each field becomes the value encoded in the payload. This holds for the corrected 64-bit reader; see Findings. |
| ZipExtra.Zip64Idempotent | src/adm-zip/zipEntry.js:164-191 | Applying the same Zip64 payload twice gives the same header as applying it once. |
| ZipExtra.ScanRecords | src/adm-zip/zipEntry.js:150-156 | The walk yields at most one record per four bytes of the extra field. |
| ZipExtra.ParseExtraAppliesRecords | src/adm-zip/zipEntry.js:147-161 | `ZipExtra.ParseExtra` applies `ZipExtra.ParseZip64` to exactly the records with id 0x0001, in order. Other records are skipped by their declared size. A tail too short for an `(id, size)` pair throws, after the earlier records have been applied. |
| ZipExtra.ParseExtraFrame | src/adm-zip/zipEntry.js:147-161 | Whether it throws or not, `ZipExtra.ParseExtra` changes no header field other than the four Zip64 ones. |
| ZipExtra.ScanEncoded | src/adm-zip/zipEntry.js:150-156 | Walking the encoding of a list of records yields exactly those records, with no truncation. |
| ZipExtra.NoZip64Unchanged | src/adm-zip/zipEntry.js:157-159 | With no Zip64 record, `ZipExtra.ParseExtra` leaves the header unchanged. |
| ZipExtra.ParseExtraWalk | src/adm-zip/zipEntry.js:147-161 | The offset-advancing loop computes `ZipExtra.ParseExtra`, the record-by-record definition, including the throw on a truncated record. |
| ZipEntry.CheckCrc | src/adm-zip/zipEntry.js:25-37 | With general-purpose flag bit 3 set, the CRC check passes. Otherwise it passes exactly when the CRC-32 of the data equals the local header's CRC. |
| ZipEntry.CompressedData | src/adm-zip/zipEntry.js:17-23 | With no input buffer the compressed data is empty. Otherwise it is the `compressedSize` bytes at the data offset. |
| ZipEntry.FitTo | src/adm-zip/zipEntry.js:58-62 | A buffer of `size` bytes with the source copied in: the common prefix equals the source and the rest is zero. |
| ZipEntry.DecompressDirectory | src/adm-zip/zipEntry.js:44-49 | For `ZipEntry.Decompress` (synchronous) and `ZipEntry.DecompressAsync` (callback): a directory decodes to an empty buffer. The callback gets an empty buffer and the directory error. |
| ZipEntry.DecompressNoData | src/adm-zip/zipEntry.js:51-56 | For `ZipEntry.Decompress` (synchronous) and `ZipEntry.DecompressAsync` (callback): an entry with no input, or with an empty compressed slice, decodes to an empty buffer. The callback gets the no-data error. |
| ZipEntry.DecompressUnknownMethod | src/adm-zip/zipEntry.js:90-92 | For `ZipEntry.Decompress` (synchronous) and `ZipEntry.DecompressAsync` (callback): an unknown method returns the unknown-method marker. The callback gets an empty buffer. |
| ZipEntry.DecompressStored | src/adm-zip/zipEntry.js:58-69 | For `ZipEntry.Decompress` (synchronous) and `ZipEntry.DecompressAsync` (callback): STORED output has `header.size` bytes, the compressed slice and then zeros. A CRC mismatch makes the synchronous call return the bad-CRC marker and the callback receive the data with the bad-CRC error. |
| ZipEntry.DecompressDeflated | src/adm-zip/zipEntry.js:70-78 | For `ZipEntry.Decompress`: the DEFLATED path always returns the inflated data cut or padded to `header.size`. It only warns on a CRC mismatch. |
| ZipEntry.StoredRoundTrip | src/adm-zip/zipEntry.js:58-69 | For `ZipEntry.Decompress` (synchronous) and `ZipEntry.DecompressAsync` (callback): a STORED entry whose slice is the content and whose local CRC is that content's CRC-32 decodes to exactly the content, with no error. |
| ZipEntry.StoredCorruptRejected | src/adm-zip/zipEntry.js:61-65 | For `ZipEntry.Decompress`: a STORED entry whose local CRC differs from its content's CRC-32 is rejected with the bad-CRC marker. |
| ZipEntry.StoredChangedByteRejected | src/adm-zip/zipEntry.js:61-65 | For `ZipEntry.Decompress` (synchronous) and `ZipEntry.DecompressAsync` (callback): a STORED entry whose local header holds the CRC-32 of its content, read from an archive where one byte of that content has changed, is rejected. The synchronous call returns the bad-CRC marker, and the callback gets the changed bytes with the bad-CRC error. |
| ZipEntry.SetEntryName | src/adm-zip/zipEntry.js:231-236 | The entry is a directory exactly when the name's last byte is `/` or `\` (so never for an empty name). `fileNameLength` is the name's length, and nothing else changes. |
| ZipEntry.SetExtra | src/adm-zip/zipEntry.js:239-243 | The extra field and its length are stored, and the header becomes the outcome of `parseExtra` on it, whether or not that throws. |
| ZipEntry.SetDataThenGetData | src/adm-zip/zipEntry.js:262-280 | After `ZipEntry.SetData` with a non-empty buffer on a file entry, size, method (DEFLATED), CRC and `changed` describe that buffer. Both `ZipEntry.GetData` and `ZipEntry.GetDataAsync` return exactly it. |
| ZipEntry.SetDataStoredOnly | src/adm-zip/zipEntry.js:262-275 | On a directory, or with an empty buffer, `ZipEntry.SetData` only sets the method to STORED. `changed` is untouched, so `ZipEntry.GetData` still decodes the archive. |
| Strings.JoinSplit | src/util/local-storage.js:41 | Joining the pieces of a split with the same separator gives back the string. |
| Strings.SplitJoin | src/util/local-storage.js:67-72 | Splitting a join of pieces that do not contain the separator character gives back the pieces. |
| Strings.ArrowSplitJoin | src/util/local-storage.js:11-15 | `a=>b` splits on `=>` into `[a, b]` when neither part contains `=>`. |
| Numbers.ParseShow | src/settings.js:82 | `parseInt` reads back every integer from the decimal text a template literal prints for it. |
| LocalStorage.ParsePairs | src/util/local-storage.js:8-16 | There is one pair per `,`-separated segment, in order. Each pair is the text before the first `=>`, and the text between the first `=>` and the next one (`parts[1]`), or `undefined` when there is no `=>`. |
| LocalStorage.FindSource | src/util/local-storage.js:17 | The record found is the first with the source id, as `Array.find` returns it. No record is found exactly when no record has the id. |
| LocalStorage.WithoutSource | src/util/local-storage.js:45-46 | The kept records are exactly those whose source id differs, each kept as often as it occurs. A removed record occurs zero times. With no match, the list is unchanged. |
| LocalStorage.WithoutSourceAppend | src/util/local-storage.js:45-46 | Filtering a concatenation is concatenating the filtered parts, so `LocalStorage.WithoutSource` keeps the kept records in their input order. |
| LocalStorage.WithoutId | src/util/local-storage.js:41 | The kept ids are exactly those that differ from the removed id, each kept as often as it occurs. The removed id occurs zero times. An `undefined` id removes nothing. |
| LocalStorage.WithoutIdAppend | src/util/local-storage.js:41 | Filtering a concatenation is concatenating the filtered parts, so `LocalStorage.WithoutId` keeps the kept ids in their input order. |
| LocalStorage.AddFrame | src/util/local-storage.js:53-65 | `LocalStorage.Add` changes no setting other than the language's pair list and the generated-id list. |
| LocalStorage.RemoveFrame | src/util/local-storage.js:4-51 | `LocalStorage.Remove` changes no setting other than the language's pair list and the generated-id list. |
| LocalStorage.RemoveWithoutList | src/util/local-storage.js:7 | With the pair list absent or empty, `LocalStorage.Remove` does nothing. |
| LocalStorage.GetListShape | src/util/local-storage.js:67-73 | `LocalStorage.GetList` is empty exactly when the id setting is absent or empty. Otherwise, joining it gives back the stored value. |
| LocalStorage.AddThenList | src/util/local-storage.js:53-73 | After `LocalStorage.Add`, `LocalStorage.GetList` ends with the new id. It is exactly `[id]` when the pair list was empty, and otherwise the previous value's pieces followed by the id. |
| LocalStorage.AddThenPairs | src/util/local-storage.js:53-64 | After `LocalStorage.Add`, the pair list is `s=>t` when it was empty, and otherwise the previous value followed by `,s=>t`. For a pair with no `,` or `=>` in its ids, it parses back as the previous records followed by `(s, t)`. Both hold when the pair-list key differs from the id-list key. |
| LocalStorage.ReparsePairs | src/util/local-storage.js:8-16 | Printing clean pairs and parsing the result again gives back the pairs. |
| LocalStorage.PrintParsed | src/util/local-storage.js:45-48 | On a well-formed pair list (one `=>` per segment), parsing and then printing is the identity. |
| LocalStorage.RemoveKeepsOthers | src/util/local-storage.js:45-49 | After `LocalStorage.Remove`, the stored pair list is `""` when no other record is left. Otherwise it reads back as the old list without the source id's records, in order, so no record has that source id. A record that had no copy id reads back with the text `undefined`. When every segment has a `=>`, the records read back unchanged. |
| LocalStorage.RemoveDropsCopy | src/util/local-storage.js:40-43 | When a record matches, `LocalStorage.Remove` turns the id list into the old list without every occurrence of the first match's translated id, in order. |
| LocalStorage.RemoveUnmatchedKeepsIds | src/util/local-storage.js:17-44 | When no record matches, `LocalStorage.Remove` leaves the id list untouched. |
| LocalStorage.RemoveAbsentIsNoOp | src/util/local-storage.js:45-49 | `LocalStorage.Remove` of an absent source from a well-formed pair list leaves the whole document unchanged. |
| Client.FirstPresent | src/util/client.js:21-26 | A reference reading of the `\|\|` chain: the first truthy form (no truthy form before it), or `''` exactly when none is truthy. |
| Client.ChooseFormOrder | src/util/client.js:20-27 | The plural fallback picks the first truthy form in the order one, zero, two, few, many, other. |
| Client.Normalise | src/util/client.js:17-32 | String text is kept exactly when non-empty. Plural text is kept exactly when its chosen form is non-empty, and the kept text is that form. Absent text is dropped. A kept entry keeps its id. |
| Client.Convert | src/util/client.js:15-33 | The output is never longer than the input and has no empty text. Its entries are exactly the normalised entries that survive. |
| Client.ConvertAppend | src/util/client.js:15-33 | Converting a concatenation is concatenating the conversions, so survivors keep input order. |
| Client.Requests | src/util/client.js:1-13 | The pages requested are at `offset + 500k`, in order. Only the last one stops the recursion (fewer than 500 items, or offset past 4000). There are at most `(4000 - offset) / 500 + 2` requests, which is 10 from offset 0. |
| Client.FetchFrom | src/util/client.js:5-12 | The result is the converted pages concatenated in increasing offset order. |
| Client.FetchAllStrings | src/util/client.js:2 | An absent offset starts at 0. |
| TextUtil.FirstLine | src/util/string.js:5-6 | `lines[0]`: a prefix of the input with no newline, followed by a newline or the end. |
| TextUtil.FirstLineUnique | src/util/string.js:5-6 | Only one prefix has that shape. |
| TextUtil.SplitFirstLine | src/util/string.js:5-9 | The first piece of `split('\n')` is the first line, and there is more than one piece exactly when the input contains a newline. |
| TextUtil.TruncateLongText | src/util/string.js:4-13 | `null` or `undefined` gives `''`, and the result never has a newline. A first line longer than 50 gives its first 47 characters plus `...` (exactly 50). Otherwise more than one line gives the first line plus `...` (at most 53), and a single short line is returned unchanged. |
| TextUtil.TruncateKeepsLineStart | src/util/string.js:6-11 | The result starts with a prefix of the first line: all of it, or its first 47 characters when it is longer than 50. |
| Screenshots.LiveArtboards | src/action/upload-screenshots.js:33-36 | The artboards considered are exactly the page's artboards whose id is not a generated one, in their order. |
| Screenshots.DropObsolete | src/action/upload-screenshots.js:42-44 | A tag is kept exactly when its string id was fetched and, on the selected page, its artboard is live. The result is a subsequence of the input. |
| Screenshots.FindArtboard | src/action/upload-screenshots.js:58 | The artboard found is the first live artboard with the tag's artboard id. None is found exactly when no live artboard has it. |
| Screenshots.FindText | src/action/upload-screenshots.js:60 | The element found is the first with the tag's text id and type. None is found exactly when no element matches both. |
| Screenshots.Matched | src/action/upload-screenshots.js:54-70 | A tag of another page survives exactly when its page exists. A selected-page tag survives exactly when its text element is found. The survivors are a subsequence of the input. |
| Screenshots.Pairs | src/action/upload-screenshots.js:53-66 | Every selected-page tag whose element is found is paired with that element, and no other pair is produced. |
| Screenshots.MatchTags | src/action/upload-screenshots.js:53-70 | The one-pass filter produces both the surviving tags and the pending pairs. |
| Screenshots.AddJoins | src/action/upload-screenshots.js:78-80 | A pair whose artboard already has a group joins the end of that group, and the grouping invariant holds. |
| Screenshots.AddOpens | src/action/upload-screenshots.js:73-77 | A pair whose artboard has no group opens a new group holding the looked-up artboard, and the invariant holds. |
| Screenshots.GroupByArtboard | src/action/upload-screenshots.js:72-82 | The groups partition the pending pairs by artboard. Group artboard ids are distinct, and each group holds exactly its artboard's pairs, in order, and is non-empty. Every pair has a group. |
| Screenshots.Reconcile | src/action/upload-screenshots.js:32-93 | The saved tags are a subsequence of the stored ones, and each has a fetched string id. Each has an existing page, or, on the selected page, a live artboard with its text element. The groups hold only saved tags of their own artboard, have distinct artboards, and cover every selected-page survivor. A stored tag is saved exactly when it passes both filters, and the saved list is the filtered list in its order. The groups partition the matched entries by artboard: each entry lands in exactly one group, and each group holds its artboard's entries in order. |
| Constants.OptionIds | src/constants.js:16-35 | The sixteen key-naming options are numbered 1 to 16 in order, and the default (16) is one of them. |
| SettingsStore.ParseValue | src/action/settings.js:70-72 | `parseInt` of a stored number is that number; of a boolean, `null` or NaN it is NaN. |
| SettingsStore.Mask | src/action/settings.js:22-25 | A token is masked exactly when it is a string longer than three characters. The mask is its first three characters plus `...`. |
| SettingsActions.GetCredentials | src/action/settings.js:21-28 | The organization is as stored. The token is masked when it is a string longer than three characters, and returned as stored otherwise. |
| SettingsActions.SaveCredentials | src/action/settings.js:90-101 | The token is written unless it equals the stored token's mask. The organization is always written. No other global setting and no document setting changes. |
| SettingsActions.SaveShownCredentials | src/action/settings.js:90-99 | Saving exactly what `getCredentials` returned leaves the stored token and the organization as they were. |
| SettingsActions.SaveToDocument | src/action/settings.js:104-108 | With no document selected nothing changes. Otherwise only the one key of the document's store is written. |
| SettingsActions.GetOverrideTranslations | src/action/settings.js:30-38 | `false` with no document, otherwise the stored value as it is. |
| SettingsActions.SaveOverrideTranslations | src/action/settings.js:40-47 | With a document selected, the value is stored as given, `getOverrideTranslations` reads it back, and no other document key changes. Without one, nothing changes. |
| SettingsActions.GetContentSegmentation | src/action/settings.js:49-58 | True with no document or with the value unset. Otherwise the value's truthiness. |
| SettingsActions.SaveContentSegmentation | src/action/settings.js:60-67 | With a document selected, the value's truthiness is stored as a boolean and no other document key changes. Without one, nothing changes. |
| SettingsActions.ContentSegmentationRoundTrip | src/action/settings.js:60-67 | Saving stores a boolean that reads back as the saved value's truthiness. |
| SettingsActions.SelectedPattern | src/action/settings.js:70-72 | Without a document, or without a truthy stored pattern, the selected option is the default, 16. A truthy stored pattern is parsed with `parseInt`, so a stored non-zero integer is itself the option in force. |
| SettingsActions.GetKeyPatternOptions | src/action/settings.js:69-79 | The sixteen options appear in constant order with their ids and names. Each is selected exactly when its id equals the pattern in force. |
| SettingsActions.OneOptionSelected | src/action/settings.js:69-79 | At most one option is selected, and with the default in force it is the last one. |
| SettingsActions.SaveKeyPatternOption | src/action/settings.js:81-88 | With a document selected, the value is stored as the key-naming pattern and no other document key changes. Without one, nothing changes. |
| SettingsActions.KeyPatternRoundTrip | src/action/settings.js:81-88 | Saving an option's id selects exactly that option. |
| SettingsActions.SaveProject | src/action/settings.js:103-112 | With a document selected, the project id is stored as given and no other document key changes. Without one, nothing changes. |
| SettingsActions.SaveBranch | src/action/settings.js:114-123 | With a document selected, the branch id is stored as given and no other document key changes. Without one, nothing changes. |
| SettingsActions.SaversNeedDocument | src/action/settings.js:40-123 | With no document selected, none of the five savers changes any setting. |
| SettingsPrompts.TokenPromptInitial | src/settings.js:14-18 | The token prompt starts with an initial value exactly when the token is a string longer than three characters. That value is the token's first three characters followed by `...`. |
| SettingsPrompts.SetAccessToken | src/settings.js:12-31 | A dismissed prompt, or an answer equal to the mask, writes nothing. Any other answer becomes the token, and nothing else changes. |
| SettingsPrompts.SetOrganization | src/settings.js:33-47 | The answer is written unless the prompt was dismissed, and nothing else changes. |
| SettingsPrompts.ConnectToCrowdin | src/settings.js:7-10 | The organization prompt runs first and the token prompt after it. Neither touches the document, and no global setting other than the organization and the token changes. |
| SettingsPrompts.AcceptMaskKeepsToken | src/settings.js:24-26 | Accepting the prompt's masked initial value keeps the stored token. |
| SettingsPrompts.LabelRoundTrip | src/settings.js:74-82 | `SettingsPrompts.ParseLabel` of a project's `name [id]` label (`SettingsPrompts.Label`) is its id, whatever `[` the name contains. |
| SettingsPrompts.FindProject | src/settings.js:67 | The project found is the first listed project with the id. None is found exactly when no listed project has it. |
| SettingsPrompts.InitialLabel | src/settings.js:63-71 | The preselected label is one of the listed projects' labels. It is the first project's when the stored project id is not truthy. A truthy stored id is parsed with `parseInt`; when that gives a number naming a listed project, the label is the first such project's, and otherwise it is the first project's. |
| SettingsPrompts.ProjectPrompt | src/settings.js:54-75 | No document, or an empty project list, raises its error before any prompt. Otherwise the prompt offers every project's label in order and preselects exactly the label `SettingsPrompts.InitialLabel` picks from the document's stored project id. |
| SettingsPrompts.SetProjectIdFromExisting | src/settings.js:49-88 | The flow connects first only when the organization or token is missing. An error stops it with the connection kept. A dismissed choice writes nothing and reports no error. A chosen label stores its parsed id (or NaN) in the document, and no other document key changes. |
| SettingsPrompts.ChooseListedProject | src/settings.js:72-83 | Choosing a listed project's label stores that project's id. |
| SettingsPrompts.NoProjectsNoPrompt | src/settings.js:60-62 | An empty project list ends in the no-projects error with the document untouched. |

## Left out

- DEFLATE inflate and deflate: `Methods.Inflater` and `Methods.Deflater` are not part of this model. Inflate is an opaque function parameter, and the DEFLATED branch of `compress` is not modelled.
- `compress`, `getCompressedData`, the `comment` setter, the `name`, `attr` and `header` accessors, and `toBuffer`'s UTF-8 encoding: these are outside the decoder logic modelled here. Names, extra fields and data are byte sequences from the start.
- Binary headers:
  - `./headers` (`loadDataHeaderFromBinary`, `loadFromBinary`, header serialisation) is not part of this model;
  - the data offset and local CRC come as a `LocalHeader` value;
  - the central header is the `Header` record.
- The constants of `./util`: that module is not part of this model. STORED = 0, DEFLATED = 8, the Zip64 record id 0x0001, payload offsets 0/8/16/24, and the sentinels 0xFFFFFFFF and 0xFFFF are adm-zip's standard values.
- ZipExtra.ParseZip64: it reads the 64-bit fields with the corrected reader rather than the one at zipEntry.js:143-145 (see Findings). As written, the static `Buffer.readUInt32LE` call there throws; `ZipExtra.ParseZip64AsWritten` and `ZipExtra.ParseExtraAsWritten` model that path. `ZipEntry.SetExtra` and the rest of the model use the corrected parser.
- ZipExtra.ParseExtra: the `RangeError` that `readUInt16LE` throws on a truncated record is a `Failure` carrying the header as updated so far. The exception itself and its propagation are not modelled.
- Asynchronous timing: a callback is modelled as the value it receives. The crc32OK `@TODO` for the data descriptor is modelled as written: the check passes.
- Console warnings: the DEFLATED warning is a `warned` flag.
- Host UI messages (`ui.message`) and the warning shown when no document is selected.
- Removing a translated page or artboard from the document (local-storage.js:19-39): this is host DOM work. Only the settings part of `removeTranslatedElement` is modelled.
- Network and REST client: `listProjectStrings` is a pure function from offset to page. A response whose `data` is absent is not modelled, because every page is a list. `createClient`, `handleError`, `sendTagsGroup` and the screenshot upload (upload-screenshots.js:84-91, 99-147) are left out.
- Client.Requests: the recursion and its termination are modelled. The `await` ordering of the requests is not.
- Screenshots.Reconcile:
  - `getTextElementsInArtboard` (src/util/dom.js) comes as data: the text elements of each artboard;
  - the stored tags come as a list, because `localStorage.getTags` and `saveTags` are not in the local-storage file;
  - the guards at upload-screenshots.js:13-30 (no document, no page, no token, no project) are the surrounding orchestration;
  - the saved list is what `saveTags` writes, but the source writes it only after every group upload has succeeded (upload-screenshots.js:91-93). A failed upload throws first and nothing is saved. The uploads are not modelled, so neither is that ordering.
- TextUtil.TruncateLongText: the limit of 50, the cut at 47 and the first line's length count Unicode scalar values, because a Dafny `string` is a sequence of them. JavaScript's `length` and `substring` count UTF-16 code units. The two agree on text inside the Basic Multilingual Plane. A line with characters outside it (an emoji, say) measures longer in the source, and the source's cut can split a surrogate pair, which a Dafny `string` cannot hold.
- SettingsStore.Mask: the `length > 3` test and the three-character cut count Unicode scalar values, not UTF-16 code units. The same holds for SettingsActions.GetCredentials and SettingsPrompts.TokenPromptInitial, which mask through it.
- LocalStorage.AddThenPairs: it states the pair list only when the pair-list key and the id-list key differ. When the language name is `translated` they coincide, and the second write replaces the pair list by the id list (local-storage.js:63-64). `LocalStorage.Add` models that, but no lemma states it.
- LocalStorage.RemoveDropsCopy and LocalStorage.RemoveUnmatchedKeepsIds: both require the pair-list key and the id-list key to differ. They coincide when the language name is `translated`. The source then writes the filtered id list and overwrites it with the pair list under the same key (local-storage.js:40-49). `LocalStorage.Remove` models that overwrite, but no lemma states it.
- Writing `undefined` to a setting is modelled as unsetting the key. Reading it back gives `undefined` either way.
- Numbers.ParseInt: white space other than the ASCII and line-terminator characters listed (the other Unicode space separators) is not skipped.
- Numbers.Show: integers of magnitude 10^21 or more, which JavaScript prints in exponent form, are printed as plain digits.
- Project ids and key-naming values are integers. Floating-point values are not modelled.
- CRC check values: the CRC over concrete byte strings (such as the standard "123456789") are not proved. Evaluating the bitwise XOR on literals is beyond what the verifier does cheaply; the bitwise equivalence lemma covers every input instead.
- The `test` function of settings.js and `contactUs` of action/settings.js: these are host-only.

## Findings

| source | as written | input that shows it | evidently intended | confidence | as-written member | corrected member |
|---|---|---|---|---|---|---|
| src/adm-zip/zipEntry.js:143-170 | `readUInt64LE` calls `Buffer.readUInt32LE(offset)` as a static method. A Node.js `Buffer` has no such static method, so the first 64-bit read throws a `TypeError`. `parseZip64ExtendedInformation` reads before it tests the sentinel, so every Zip64 record of 8 bytes or more makes the `extra` setter throw, and no Zip64 field is ever overridden | an extra field holding one Zip64 record (id 0x0001) with an 8-byte payload, for a header whose size is 0xFFFFFFFF: the parse throws and the size keeps the sentinel | the instance call `buffer.readUInt32LE(offset)`, so that the record's value replaces the sentinel | high; not executed | ZipExtra.Zip64SizeRecordThrowsAsWritten | ZipExtra.Zip64Overrides |
| src/adm-zip/zipEntry.js:143-145 | `(hi << 4) + lo`: the high word is shifted left by 4 bits, truncated to a signed 32-bit integer, then added to the low word. This only matters once the static call above is repaired; as written that call throws first | with the static call read as the instance call, the 8-byte field `00 00 00 00 01 00 00 00`, which encodes 2^32, reads as 16 | `hi * 2^32 + lo`, the 64-bit little-endian value that the Zip64 record stores (section 4.5.3 of the PKWARE .ZIP File Format Specification) | high; not executed | ZipExtra.ReadUInt64LEAsWrittenMisreads | ZipExtra.ReadEncoded64 |

=== FILE: bytes.dfy ===
/** Bytes, 32-bit words and the bit operations the ZIP entry code performs on
    them. JavaScript's bitwise operators work on 32-bit two's-complement
    integers; the source always reads the results back as unsigned, so a word
    here is an integer in [0, 2^32) and the operators are defined on its bits. */
module Bytes {

  /** An octet of a Node.js `Buffer`. */
  type Byte = x: int | 0 <= x < 0x100

  /** An unsigned 32-bit word. */
  type Word = x: int | 0 <= x < 0x1_0000_0000

  /** 2^k. */
  function Pow2(k: nat): (p: nat)
    ensures p >= 1
  {
    if k == 0 then 1 else 2 * Pow2(k - 1)
  }

  /** The low `width` bits of `a ^ b`, built from the lowest bit up. */
  function Xor(a: nat, b: nat, width: nat): (r: nat)
    ensures r < Pow2(width)
  {
    if width == 0 then 0
    else (if a % 2 == b % 2 then 0 else 1) + 2 * Xor(a / 2, b / 2, width - 1)
  }

  /** The powers of two the word arithmetic needs. */
  lemma Pow2Values()
    ensures Pow2(8) == 0x100 && Pow2(16) == 0x1_0000 && Pow2(24) == 0x100_0000
    ensures Pow2(31) == 0x8000_0000 && Pow2(32) == 0x1_0000_0000
  {
    assert Pow2(8) == 0x100;
    assert Pow2(16) == 0x1_0000 by {
      assert Pow2(16) == Pow2(8) * 0x100 by { Pow2Add(8, 8); }
    }
    assert Pow2(24) == 0x100_0000 by {
      assert Pow2(24) == Pow2(16) * 0x100 by { Pow2Add(16, 8); }
    }
    assert Pow2(32) == 0x1_0000_0000 by {
      assert Pow2(32) == Pow2(24) * 0x100 by { Pow2Add(24, 8); }
    }
  }

  lemma {:induction false} Pow2Add(j: nat, k: nat)
    ensures Pow2(j + k) == Pow2(j) * Pow2(k)
    decreases k
  {
    if k > 0 {
      Pow2Add(j, k - 1);
    }
  }

  /** JavaScript's `(a ^ b) >>> 0` on two unsigned 32-bit words. */
  function Xor32(a: Word, b: Word): Word {
    Pow2Values();
    Xor(a, b, 32)
  }

  /** XOR is symmetric. */
  lemma {:induction false} XorCommutes(a: nat, b: nat, width: nat)
    ensures Xor(a, b, width) == Xor(b, a, width)
  {
    if width > 0 {
      XorCommutes(a / 2, b / 2, width - 1);
    }
  }

  /** A value XORed with itself vanishes. */
  lemma {:induction false} XorSelf(a: nat, width: nat)
    ensures Xor(a, a, width) == 0
  {
    if width > 0 {
      XorSelf(a / 2, width - 1);
    }
  }

  /** XOR with zero keeps a value that fits in the width. */
  lemma {:induction false} XorZero(a: nat, width: nat)
    requires a < Pow2(width)
    ensures Xor(a, 0, width) == a
  {
    if width > 0 {
      XorZero(a / 2, width - 1);
    }
  }

  /** XORing the same value twice undoes it. */
  lemma {:induction false} XorCancel(a: nat, b: nat, width: nat)
    requires a < Pow2(width)
    ensures Xor(Xor(a, b, width), b, width) == a
  {
    if width > 0 {
      var r := Xor(a / 2, b / 2, width - 1);
      var bit := if a % 2 == b % 2 then 0 else 1;
      var x := Xor(a, b, width);
      assert x == bit + 2 * r;
      assert x / 2 == r && x % 2 == bit;
      XorCancel(a / 2, b / 2, width - 1);
      assert (if x % 2 == b % 2 then 0 else 1) == a % 2;
    }
  }

  /** When only `b` has the top bit of the width set, so does `a ^ b`. */
  lemma {:induction false} XorTopBit(a: nat, b: nat, width: nat)
    requires width > 0
    requires a < Pow2(width - 1) && Pow2(width - 1) <= b < Pow2(width)
    ensures Xor(a, b, width) >= Pow2(width - 1)
  {
    if width > 1 {
      XorTopBit(a / 2, b / 2, width - 1);
    }
  }

  /** XOR with a fixed word tells its other argument apart. */
  lemma Xor32Injective(a: Word, b: Word, c: Word)
    requires Xor32(a, c) == Xor32(b, c)
    ensures a == b
  {
    Pow2Values();
    XorCancel(a, c, 32);
    XorCancel(b, c, 32);
  }

  /** The lowest bit of `a ^ b` and the XOR of the remaining bits. */
  lemma XorBits(a: nat, b: nat, width: nat)
    requires width > 0
    ensures Xor(a, b, width) % 2 == (if a % 2 == b % 2 then 0 else 1)
    ensures Xor(a, b, width) / 2 == Xor(a / 2, b / 2, width - 1)
  {
  }

  /** XOR is associative. */
  lemma {:induction false} XorAssoc(a: nat, b: nat, c: nat, width: nat)
    ensures Xor(Xor(a, b, width), c, width) == Xor(a, Xor(b, c, width), width)
  {
    if width > 0 {
      XorBits(a, b, width);
      XorBits(b, c, width);
      XorAssoc(a / 2, b / 2, c / 2, width - 1);
    }
  }

  /** Widening the XOR of two values that already fit changes nothing. */
  lemma {:induction false} XorWiden(a: nat, b: nat, width: nat)
    requires a < Pow2(width) && b < Pow2(width)
    ensures Xor(a, b, width + 1) == Xor(a, b, width)
  {
    if width > 0 {
      XorWiden(a / 2, b / 2, width - 1);
    }
  }

  /** `x << k` for a non-negative `x`, one bit at a time, without
      truncation. */
  function Shl(x: nat, k: nat): nat {
    if k == 0 then x else 2 * Shl(x, k - 1)
  }

  /** XOR of a value below 2^k with a value shifted left by k is their sum:
      the two have no set bit in common. */
  lemma {:induction false} XorDisjoint(low: nat, high: nat, k: nat, width: nat)
    requires k <= width && low < Pow2(k) && high < Pow2(width - k)
    ensures Xor(low, Shl(high, k), width) == low + Shl(high, k)
    decreases k
  {
    if k == 0 {
      XorCommutes(low, high, width);
      XorZero(high, width);
    } else {
      XorDisjoint(low / 2, high, k - 1, width - 1);
      XorDisjointStep(low, high, k, width);
    }
  }

  /** The inductive step of `XorDisjoint`: the lowest bit of the low part
      passes through, and the rest is one bit narrower on both sides. */
  lemma XorDisjointStep(low: nat, high: nat, k: nat, width: nat)
    requires 0 < k <= width
    requires Xor(low / 2, Shl(high, k - 1), width - 1) == low / 2 + Shl(high, k - 1)
    ensures Xor(low, Shl(high, k), width) == low + Shl(high, k)
  {
    XorEven(low, Shl(high, k - 1), width);
  }

  /** XOR with an even number keeps the lowest bit. */
  lemma XorEven(a: nat, m: nat, width: nat)
    requires width > 0
    ensures Xor(a, 2 * m, width) == a % 2 + 2 * Xor(a / 2, m, width - 1)
  {
    assert (2 * m) % 2 == 0 && (2 * m) / 2 == m;
  }

  /** Shifting left by eight multiplies by 256. */
  lemma ShlEight(x: nat)
    ensures Shl(x, 8) == 0x100 * x
  {
    assert Shl(x, 1) == 2 * x;
    assert Shl(x, 2) == 4 * x;
    assert Shl(x, 3) == 8 * x;
    assert Shl(x, 4) == 16 * x;
    assert Shl(x, 5) == 32 * x;
    assert Shl(x, 6) == 64 * x;
    assert Shl(x, 7) == 128 * x;
  }

  /** `x >>> k` for a non-negative `x`, one bit at a time. */
  function Shr(x: nat, k: nat): nat {
    if k == 0 then x else Shr(x / 2, k - 1)
  }

  /** Shifting commutes with XOR. */
  lemma {:induction false} XorShr(a: nat, b: nat, width: nat, k: nat)
    requires k <= width
    ensures Shr(Xor(a, b, width), k) == Xor(Shr(a, k), Shr(b, k), width - k)
  {
    if k > 0 {
      XorBits(a, b, width);
      XorShr(a / 2, b / 2, width - 1, k - 1);
    }
  }

  /** Shifting right by eight divides by 256. */
  lemma ShrEight(x: nat)
    ensures Shr(x, 8) == x / 0x100
  {
    assert Shr(x, 8) == Shr(x / 2, 7) == Shr(x / 2 / 2, 6) == Shr(x / 2 / 2 / 2, 5);
    assert x / 2 / 2 / 2 == x / 8;
    assert Shr(x / 8, 5) == Shr(x / 8 / 2, 4) == Shr(x / 8 / 2 / 2, 3) == Shr(x / 8 / 2 / 2 / 2, 2);
    assert x / 8 / 2 / 2 / 2 == x / 64;
    assert Shr(x / 64, 2) == Shr(x / 64 / 2, 1) == x / 64 / 2 / 2;
    assert x / 64 / 2 / 2 == x / 256;
  }

  /** XORing a byte into a word leaves its bits 8 and up alone. */
  lemma XorHigh(acc: Word, b: Byte)
    ensures Xor32(acc, b) / 0x100 == acc / 0x100
  {
    var v := Xor32(acc, b);
    XorShr(acc, b, 32, 8);
    ShrEight(v);
    ShrEight(acc);
    ShrEight(b);
    Pow2Values();
    XorZero(acc / 0x100, 24);
    calc {
      v / 0x100;
      Shr(v, 8);
      Xor(Shr(acc, 8), Shr(b, 8), 24);
      Xor(acc / 0x100, 0, 24);
      acc / 0x100;
    }
  }

  /** A word is the XOR of its low byte and its higher bits shifted back
      into place. */
  lemma XorSplit(v: Word)
    ensures Shl(v / 0x100, 8) < 0x1_0000_0000
    ensures Xor32(v % 0x100, Shl(v / 0x100, 8)) == v
  {
    Pow2Values();
    ShlEight(v / 0x100);
    XorDisjoint(v % 0x100, v / 0x100, 8, 32);
  }
}

=== FILE: client.dfy ===
/** Normalisation of the source strings the translation service returns, and
    the paginated fetch that collects them (`src/util/client.js`).

    The service itself is a parameter: `page(offset)` is the list of strings
    it answers for one request of at most `PageLimit` strings starting at
    `offset`. */
module Client {
  import opened Wrappers

  /** Strings requested per page. */
  const PageLimit: nat := 500

  /** Offsets above this stop the fetch whatever the page size. */
  const MaxOffset: nat := 4000

  /** The plural forms of a pluralised string; each may be absent. */
  datatype PluralForms = PluralForms(
    one: Option<string>, zero: Option<string>, two: Option<string>,
    few: Option<string>, many: Option<string>, other: Option<string>)

  /** The `text` of a string as the service sends it: absent, a plain
      string, or an object of plural forms. */
  datatype RawText = NoText | Text(s: string) | Plural(forms: PluralForms)

  /** One string of a page. */
  datatype RawString = RawString(id: int, text: RawText)

  /** A string after normalisation: its text and its id. */
  datatype SourceString = SourceString(text: string, id: int)

  /** JavaScript truthiness of an optional string. */
  predicate Present(o: Option<string>) {
    o.Some? && o.value != ""
  }

  /** The first truthy value of a list, or `""`: a reference reading of a
      chain of `||`. */
  function FirstPresent(forms: seq<Option<string>>): (r: string)
    ensures r == "" <==> forall k :: 0 <= k < |forms| ==> !Present(forms[k])
    ensures r != "" ==> exists k :: (0 <= k < |forms| && forms[k] == Some(r) &&
      forall j :: 0 <= j < k ==> !Present(forms[j]))
  {
    if |forms| == 0 then ""
    else if Present(forms[0]) then forms[0].value
    else
      var r := FirstPresent(forms[1..]);
      assert forall k :: 0 < k < |forms| ==> forms[k] == forms[1..][k - 1];
      r
  }

  /** One step of the `||` chain. */
  lemma FirstPresentCons(x: Option<string>, rest: seq<Option<string>>)
    ensures FirstPresent([x] + rest) == if Present(x) then x.value else FirstPresent(rest)
  {
    assert ([x] + rest)[1..] == rest;
  }

  /** `one || zero || two || few || many || other || ''`. */
  function ChooseForm(f: PluralForms): string {
    if Present(f.one) then f.one.value
    else if Present(f.zero) then f.zero.value
    else if Present(f.two) then f.two.value
    else if Present(f.few) then f.few.value
    else if Present(f.many) then f.many.value
    else if Present(f.other) then f.other.value
    else ""
  }

  /** The fallback chain picks the first present form in the order one,
      zero, two, few, many, other. */
  lemma ChooseFormOrder(f: PluralForms)
    ensures ChooseForm(f) == FirstPresent([f.one, f.zero, f.two, f.few, f.many, f.other])
  {
    FirstPresentCons(f.other, []);
    FirstPresentCons(f.many, [f.other]);
    FirstPresentCons(f.few, [f.many, f.other]);
    FirstPresentCons(f.two, [f.few, f.many, f.other]);
    FirstPresentCons(f.zero, [f.two, f.few, f.many, f.other]);
    FirstPresentCons(f.one, [f.zero, f.two, f.few, f.many, f.other]);
  }

  /** The converted form of one string, or `None` when the filter drops it:
      a plural object is replaced by its chosen form, a plain string is kept,
      and an absent or empty text is dropped. */
  function Normalise(raw: RawString): (r: Option<SourceString>)
    ensures r.Some? ==> r.value.id == raw.id && r.value.text != ""
    ensures raw.text.Text? ==> (r.Some? <==> raw.text.s != "")
    ensures raw.text.Text? && r.Some? ==> r.value.text == raw.text.s
    ensures raw.text.NoText? ==> r.None?
    ensures raw.text.Plural? ==> (r.Some? <==> ChooseForm(raw.text.forms) != "")
    ensures raw.text.Plural? && r.Some? ==> r.value.text == ChooseForm(raw.text.forms)
  {
    var text := match raw.text
      case NoText => ""
      case Text(s) => s
      case Plural(f) => ChooseForm(f);
    if text != "" then Some(SourceString(text, raw.id)) else None
  }

  /** `__convertCrowdinStringsToStrings`: normalise every string and keep
      those with a non-empty text, in input order. */
  function Convert(raws: seq<RawString>): (r: seq<SourceString>)
    ensures |r| <= |raws|
    ensures forall k :: 0 <= k < |r| ==> r[k].text != ""
    ensures forall x :: x in r <==> exists k :: 0 <= k < |raws| && Normalise(raws[k]) == Some(x)
    decreases |raws|
  {
    if |raws| == 0 then []
    else
      var rest := Convert(raws[1..]);
      assert forall k :: 0 < k < |raws| ==> raws[k] == raws[1..][k - 1];
      match Normalise(raws[0])
      case Some(x) => [x] + rest
      case None => rest
  }

  /** Conversion works piece by piece: converting a concatenation
      concatenates the conversions, so survivors keep their order. */
  lemma {:induction false} ConvertAppend(a: seq<RawString>, b: seq<RawString>)
    ensures Convert(a + b) == Convert(a) + Convert(b)
    decreases |a|
  {
    if |a| > 0 {
      assert (a + b)[0] == a[0];
      assert (a + b)[1..] == a[1..] + b;
      ConvertAppend(a[1..], b);
    } else {
      assert a + b == b;
    }
  }

  /** Whether the fetch stops after the page at `offset`. */
  predicate Stops(page: nat -> seq<RawString>, offset: nat) {
    |page(offset)| < PageLimit || offset > MaxOffset
  }

  /** The offsets requested by a fetch starting at `offset`, in order. */
  function Requests(page: nat -> seq<RawString>, offset: nat): (r: seq<nat>)
    ensures |r| >= 1 && r[0] == offset
    ensures forall k :: 0 <= k < |r| ==> r[k] == offset + PageLimit * k
    ensures Stops(page, r[|r| - 1])
    ensures forall k :: 0 <= k < |r| - 1 ==> !Stops(page, r[k])
    ensures |r| <= if offset > MaxOffset then 1 else (MaxOffset - offset) / PageLimit + 2
    decreases if offset <= MaxOffset then MaxOffset + 1 - offset else 0
  {
    if Stops(page, offset) then [offset]
    else [offset] + Requests(page, offset + PageLimit)
  }

  /** The converted pages at the given offsets, concatenated in order. */
  function ConvertPages(page: nat -> seq<RawString>, offsets: seq<nat>): seq<SourceString>
    decreases |offsets|
  {
    if |offsets| == 0 then [] else Convert(page(offsets[0])) + ConvertPages(page, offsets[1..])
  }

  /** `fetchAllStrings` from `offset`: fetch a page, and unless it is short or
      the offset is past the cap, fetch the rest from the next offset; the
      result is every requested page's conversion in offset order. */
  function FetchFrom(page: nat -> seq<RawString>, offset: nat): (r: seq<SourceString>)
    ensures r == ConvertPages(page, Requests(page, offset))
    decreases if offset <= MaxOffset then MaxOffset + 1 - offset else 0
  {
    if Stops(page, offset) then Convert(page(offset))
    else
      var r := Convert(page(offset)) + FetchFrom(page, offset + PageLimit);
      assert Requests(page, offset)[1..] == Requests(page, offset + PageLimit);
      r
  }

  /** `fetchAllStrings(projectId, api, offset)`: an absent or zero offset
      starts at 0. */
  function FetchAllStrings(page: nat -> seq<RawString>, offset: Option<nat>): (r: seq<SourceString>)
    ensures offset.None? ==> r == ConvertPages(page, Requests(page, 0))
  {
    FetchFrom(page, offset.GetOr(0))
  }
}

=== FILE: constants.dfy ===
/** The settings keys and the key-naming options of the plugin
    (`src/constants.js`). */
module Constants {

  /** The prefix of every settings key. */
  const KeyPrefix: string := "crowdin"

  const AccessTokenKey: string := KeyPrefix + "-access-token"
  const OrganizationKey: string := KeyPrefix + "-organization"
  const ProjectIdKey: string := KeyPrefix + "-project-id"
  const BranchIdKey: string := KeyPrefix + "-branch-id"
  const OverrideTranslationsKey: string := KeyPrefix + "-override-translations"
  const ContentSegmentationKey: string := KeyPrefix + "-content-segmentation"
  const KeyNamingPatternKey: string := KeyPrefix + "-key-naming"

  /** One way of naming the keys of uploaded strings. */
  datatype KeyNamingOption = KeyNamingOption(id: int, name: string)

  /** The options in the order the settings dialog lists them. */
  const KeyNamingOptions: seq<KeyNamingOption> := [
    KeyNamingOption(1, "Artboard.Group.Element_name"),
    KeyNamingOption(2, "Artboard:Group:Element_name"),
    KeyNamingOption(3, "Artboard::Group::Element_name"),
    KeyNamingOption(4, "Artboard__Group__Element_name"),
    KeyNamingOption(5, "Artboard.Element_name"),
    KeyNamingOption(6, "Artboard::Element_name"),
    KeyNamingOption(7, "Artboard__Element_name"),
    KeyNamingOption(8, "artboard.group.element_name"),
    KeyNamingOption(9, "artboard:group:element_name"),
    KeyNamingOption(10, "artboard::group::element_name"),
    KeyNamingOption(11, "artboard__group__element_name"),
    KeyNamingOption(12, "artboard.element_name"),
    KeyNamingOption(13, "artboard:element_name"),
    KeyNamingOption(14, "artboard::element_name"),
    KeyNamingOption(15, "artboard__element_name"),
    KeyNamingOption(16, "element_name")
  ]

  /** The option used when a document has none stored. */
  const DefaultKeyNamingOption: int := 16

  /** The options are numbered 1 to 16 in order, so their ids are distinct,
      and the default is one of them. */
  lemma OptionIds()
    ensures |KeyNamingOptions| == 16
    ensures forall k :: 0 <= k < |KeyNamingOptions| ==> KeyNamingOptions[k].id == k + 1
    ensures exists k :: 0 <= k < |KeyNamingOptions| && KeyNamingOptions[k].id == DefaultKeyNamingOption
  {
    assert KeyNamingOptions[15].id == DefaultKeyNamingOption;
  }
}

=== FILE: crc32.dfy ===
/** CRC-32 of the ZIP entry decoder, as section 4.4.7 of the PKWARE .ZIP File
    Format Specification defines it: the reflected generator polynomial
    0xEDB88320, a register preset to all ones, and a final complement.

    The source builds a 256-entry lookup table and folds one byte per step
    through it. Its numbers are JavaScript doubles pushed through 32-bit
    bitwise operators and re-read as unsigned (`>>> 0`, or a write/read of a
    4-byte buffer); a `Word` is that unsigned reading. */
module Crc32 {
  import opened Bytes

  /** The reflected CRC-32 generator polynomial. */
  const Polynomial: Word := 0xEDB8_8320

  /** The register's initial value, `~0` read as unsigned. */
  const Preset: Word := 0xFFFF_FFFF

  /** One round of the shift register: shift right by one bit, folding in the
      polynomial when the bit shifted out was set. */
  function Round(c: Word): Word {
    if c % 2 == 1 then Xor32(Polynomial, c / 2) else c / 2
  }

  /** `k` rounds of the shift register starting from `c`. */
  function Rounds(c: Word, k: nat): Word {
    if k == 0 then c else Round(Rounds(c, k - 1))
  }

  /** Entry `n` of the lookup table: eight rounds starting from `n`. */
  function TableEntry(n: Byte): Word {
    Rounds(n, 8)
  }

  /** The table index of one step, `(acc ^ b) & 0xFF`. */
  function Index(acc: Word, b: Byte): Byte {
    Xor32(acc, b) % 0x100
  }

  /** One table-driven step, `table[(acc ^ b) & 0xFF] ^ (acc >>> 8)`. */
  function Step(acc: Word, b: Byte): Word {
    Xor32(TableEntry(Index(acc, b)), acc / 0x100)
  }

  /** The register after folding `data` in, from the preset. */
  function Register(data: seq<Byte>): Word {
    if |data| == 0 then Preset
    else Step(Register(data[..|data| - 1]), data[|data| - 1])
  }

  /** The CRC-32 of `data`: the complement of the folded register. */
  function Checksum(data: seq<Byte>): (crc: Word)
    ensures data == [] ==> crc == 0
  {
    Preset - Register(data)
  }

  /** Folding one more byte in is one more table step. */
  lemma RegisterSnoc(data: seq<Byte>, b: Byte)
    ensures Register(data + [b]) == Step(Register(data), b)
  {
    assert (data + [b])[..|data|] == data;
  }

  /** The table as the source builds it: for each `n` below 256, eight rounds
      of the shift register starting from `n`. */
  method BuildTable() returns (table: seq<Word>)
    ensures |table| == 256
    ensures forall n :: 0 <= n < 256 ==> table[n] == TableEntry(n)
  {
    table := [];
    var n := 0;
    while n < 256
      invariant 0 <= n <= 256
      invariant |table| == n
      invariant forall m :: 0 <= m < n ==> table[m] == TableEntry(m)
    {
      var c: Word := n;
      var k := 8;
      while k > 0
        invariant 0 <= k <= 8
        invariant c == Rounds(n, 8 - k)
      {
        c := if c % 2 == 1 then Xor32(Polynomial, c / 2) else c / 2;
        k := k - 1;
      }
      table := table + [c];
      n := n + 1;
    }
  }

  /** `crc32(buf)`: build the table, fold every byte through it from `~0`,
      and complement the register. */
  method ComputeChecksum(data: seq<Byte>) returns (crc: Word)
    ensures crc == Checksum(data)
  {
    var table := BuildTable();
    var c1: Word := Preset;
    var off := 0;
    while off < |data|
      invariant 0 <= off <= |data|
      invariant c1 == Register(data[..off])
    {
      RegisterSnoc(data[..off], data[off]);
      assert data[..off + 1] == data[..off] + [data[off]];
      c1 := Xor32(table[Index(c1, data[off])], c1 / 0x100);
      off := off + 1;
    }
    assert data[..off] == data;
    crc := Preset - c1;
  }

  /** The shift register keeps an all-zero state at zero. */
  lemma {:induction false} RoundsOfZero(k: nat)
    ensures Rounds(0, k) == 0
  {
    if k > 0 {
      RoundsOfZero(k - 1);
    }
  }

  /** Table entry 0 is 0: no polynomial is ever folded in. */
  lemma TableEntryZero()
    ensures TableEntry(0) == 0
  {
    RoundsOfZero(8);
  }

  /** Table entry 0x80 is the polynomial itself: seven halvings bring the set
      bit down to bit 0, and the eighth round folds the polynomial in. */
  lemma TableEntryMiddle()
    ensures TableEntry(0x80) == Polynomial
  {
    assert Rounds(0x80, 1) == 0x40;
    assert Rounds(0x80, 2) == 0x20;
    assert Rounds(0x80, 3) == 0x10;
    assert Rounds(0x80, 4) == 0x08;
    assert Rounds(0x80, 5) == 0x04;
    assert Rounds(0x80, 6) == 0x02;
    assert Rounds(0x80, 7) == 0x01;
    Pow2Values();
    XorZero(Polynomial, 32);
    assert Round(1) == Polynomial;
  }

  /** One round of the shift register is linear: it distributes over XOR. */
  lemma RoundXor(x: Word, y: Word)
    ensures Round(Xor32(x, y)) == Xor32(Round(x), Round(y))
  {
    Pow2Values();
    var z := Xor32(x, y);
    var x', y' := x / 2, y / 2;
    XorBits(x, y, 32);
    XorWiden(x', y', 31);
    assert z / 2 == Xor32(x', y');
    var p := Polynomial;
    if x % 2 == 1 && y % 2 == 0 {
      XorAssoc(p, x', y', 32);
    } else if x % 2 == 0 && y % 2 == 1 {
      XorAssoc(x', p, y', 32);
      XorCommutes(x', p, 32);
      XorAssoc(p, x', y', 32);
    } else if x % 2 == 1 && y % 2 == 1 {
      var w := Xor32(x', y');
      XorAssoc(x', p, y', 32);
      XorCommutes(x', p, 32);
      XorAssoc(p, x', y', 32);
      assert Xor32(x', Xor32(p, y')) == Xor32(p, w);
      XorAssoc(p, x', Xor32(p, y'), 32);
      XorAssoc(p, p, w, 32);
      XorSelf(p, 32);
      XorCommutes(0, w, 32);
      XorZero(w, 32);
    }
  }

  /** Any number of rounds distributes over XOR. */
  lemma {:induction false} RoundsXor(x: Word, y: Word, k: nat)
    ensures Rounds(Xor32(x, y), k) == Xor32(Rounds(x, k), Rounds(y, k))
  {
    if k > 0 {
      RoundsXor(x, y, k - 1);
      RoundXor(Rounds(x, k - 1), Rounds(y, k - 1));
    }
  }

  /** Rounds on a value shifted left by `k` bits only shift it back, since
      every bit shifted out is clear. */
  lemma {:induction false} RoundsOfShl(h: nat, k: nat, j: nat)
    requires j <= k && Shl(h, k) < 0x1_0000_0000
    ensures Rounds(Shl(h, k), j) == Shl(h, k - j)
  {
    if j > 0 {
      RoundsOfShl(h, k, j - 1);
      assert Shl(h, k - j + 1) == 2 * Shl(h, k - j);
    }
  }

  /** A table-driven step is the XOR of the byte into the register followed
      by eight rounds: the table holds the rounds of the low byte, and the
      high 24 bits only shift. */
  lemma StepIsEightRounds(acc: Word, b: Byte)
    ensures Step(acc, b) == Rounds(Xor32(acc, b), 8)
  {
    var v := Xor32(acc, b);
    var low, high := v % 0x100, v / 0x100;
    XorSplit(v);
    RoundsXor(low, Shl(high, 8), 8);
    RoundsOfShl(high, 8, 8);
    XorHigh(acc, b);
  }

  /** The register of the bit-at-a-time definition: XOR each byte into the
      low bits of the register, then run eight rounds. */
  function BitRegister(data: seq<Byte>): Word {
    if |data| == 0 then Preset
    else Rounds(Xor32(BitRegister(data[..|data| - 1]), data[|data| - 1]), 8)
  }

  /** The source's table-driven fold computes the bit-at-a-time register, so
      `crc32` is the CRC-32 of the format whatever the data. */
  lemma {:induction false} RegisterIsBitwise(data: seq<Byte>)
    ensures Register(data) == BitRegister(data)
    ensures Checksum(data) == Preset - BitRegister(data)
  {
    if |data| > 0 {
      var init := data[..|data| - 1];
      RegisterIsBitwise(init);
      StepIsEightRounds(Register(init), data[|data| - 1]);
    }
  }
  /** One round loses no information: an odd word's round has the
      polynomial's top bit set and an even word's does not, and within each
      case the round is undone by XORing the polynomial back out. */
  lemma RoundInjective(x: Word, y: Word)
    ensures Round(x) == Round(y) <==> x == y
  {
    Pow2Values();
    XorCommutes(Polynomial, x / 2, 32);
    XorCommutes(Polynomial, y / 2, 32);
    if x % 2 == 1 && y % 2 == 1 {
      if Round(x) == Round(y) {
        Xor32Injective(x / 2, y / 2, Polynomial);
      }
    } else if x % 2 == 1 {
      XorTopBit(x / 2, Polynomial, 32);
    } else if y % 2 == 1 {
      XorTopBit(y / 2, Polynomial, 32);
    }
  }

  /** Any number of rounds loses no information. */
  lemma {:induction false} RoundsInjective(x: Word, y: Word, k: nat)
    ensures Rounds(x, k) == Rounds(y, k) <==> x == y
  {
    if k > 0 {
      RoundsInjective(x, y, k - 1);
      RoundInjective(Rounds(x, k - 1), Rounds(y, k - 1));
    }
  }

  /** A table step tells apart both the byte folded in and the register it
      starts from. */
  lemma StepInjective(acc: Word, acc': Word, b: Byte, b': Byte)
    requires acc == acc' || b == b'
    ensures Step(acc, b) == Step(acc', b') <==> acc == acc' && b == b'
  {
    StepIsEightRounds(acc, b);
    StepIsEightRounds(acc', b');
    RoundsInjective(Xor32(acc, b), Xor32(acc', b'), 8);
    if Xor32(acc, b) == Xor32(acc', b') {
      if b == b' {
        Xor32Injective(acc, acc', b);
      } else {
        Pow2Values();
        XorCommutes(acc, b, 32);
        XorCommutes(acc, b', 32);
        Xor32Injective(b, b', acc);
      }
    }
  }

  /** Changing any one byte of the data changes the register, and with it
      the CRC-32: the check catches every single-byte (so every single-bit)
      corruption. */
  lemma {:induction false} ChecksumDetectsChange(data: seq<Byte>, i: nat, b: Byte)
    requires i < |data| && b != data[i]
    ensures Register(data[i := b]) != Register(data)
    ensures Checksum(data[i := b]) != Checksum(data)
    decreases |data|
  {
    var changed := data[i := b];
    var n := |data| - 1;
    if i == n {
      assert changed[..n] == data[..n];
      StepInjective(Register(data[..n]), Register(data[..n]), b, data[n]);
    } else {
      assert changed[..n] == data[..n][i := b];
      ChecksumDetectsChange(data[..n], i, b);
      StepInjective(Register(changed[..n]), Register(data[..n]), data[n], data[n]);
    }
  }
}

=== FILE: local_storage.dfy ===
/** The registry of translated copies that the plugin keeps in a document's
    settings. For a language and an element kind (`page` or `artboard`) the
    key `crowdin-{language}-{kind}s` holds `source=>copy` pairs joined by
    `,`; the key `crowdin-translated-{kind}s` holds the ids of all generated
    copies, joined by `,`.

    Settings are modelled as a map from key to string; a key missing from the
    map is the source's `undefined`. Deleting the copy from the document is
    not part of this model. */
module LocalStorage {
  import opened Wrappers
  import opened Strings

  type Settings = map<string, string>

  /** `crowdin-{languageName}-{kind}s`. */
  function LanguageKey(languageName: string, kind: string): string {
    "crowdin-" + languageName + "-" + kind + "s"
  }

  /** `crowdin-translated-{kind}s`. */
  function TranslatedKey(kind: string): string {
    "crowdin-translated-" + kind + "s"
  }

  /** `settings.documentSettingForKey(doc, key)`. */
  function Get(doc: Settings, key: string): Option<string> {
    if key in doc then Some(doc[key]) else None
  }

  /** JavaScript truthiness of a setting: present and not the empty string. */
  predicate Truthy(v: Option<string>) {
    v.Some? && v.value != ""
  }

  /** How a template literal prints a value that may be `undefined`. */
  function Show(v: Option<string>): string {
    match v
    case Some(s) => s
    case None => "undefined"
  }

  /** One parsed segment: `parts[0]` and `parts[1]` of `p.split('=>')`; the
      second is `undefined` when the segment has no `=>`. */
  datatype Pair = Pair(sourceId: string, translatedId: Option<string>)

  function ParsePair(p: string): Pair {
    var parts := Split(p, "=>");
    Pair(parts[0], if |parts| > 1 then Some(parts[1]) else None)
  }

  /** `${p.sourceId}=>${p.translatedId}`. */
  function SerializePair(p: Pair): string {
    p.sourceId + "=>" + Show(p.translatedId)
  }

  /** `elements.split(',').map(...)`. */
  function ParsePairs(v: string): (ps: seq<Pair>)
    ensures |ps| == |Split(v, ",")|
    ensures forall k :: 0 <= k < |ps| ==> ps[k] == ParsePair(Split(v, ",")[k])
  {
    var segments := Split(v, ",");
    seq(|segments|, k requires 0 <= k < |segments| => ParsePair(segments[k]))
  }

  /** `.map(p => ...).join(',')`. */
  function SerializePairs(ps: seq<Pair>): string {
    Join(seq(|ps|, k requires 0 <= k < |ps| => SerializePair(ps[k])), ",")
  }

  /** `arr.find(p => p.sourceId === id)`. */
  function FindSource(ps: seq<Pair>, id: string): (r: Option<Pair>)
    ensures r.Some? ==> r.value in ps && r.value.sourceId == id
    ensures r.None? <==> forall k :: 0 <= k < |ps| ==> ps[k].sourceId != id
    // the match returned is the first one
    ensures forall k :: (0 <= k < |ps| && ps[k].sourceId == id && forall j :: 0 <= j < k ==> ps[j].sourceId != id) ==>
                        r == Some(ps[k])
    decreases |ps|
  {
    if |ps| == 0 then None
    else if ps[0].sourceId == id then Some(ps[0])
    else FindSource(ps[1..], id)
  }

  /** `arr.filter(p => p.sourceId !== id)`. */
  function WithoutSource(ps: seq<Pair>, id: string): (r: seq<Pair>)
    ensures forall p :: p in r <==> p in ps && p.sourceId != id
    ensures (forall k :: 0 <= k < |ps| ==> ps[k].sourceId != id) ==> r == ps
    // every kept record keeps its multiplicity; removed ones occur zero times
    ensures forall p :: multiset(r)[p] == if p.sourceId != id then multiset(ps)[p] else 0
    decreases |ps|
  {
    if |ps| == 0 then []
    else
      var rest := WithoutSource(ps[1..], id);
      assert multiset(ps) == multiset{ps[0]} + multiset(ps[1..]) by {
        assert ps == [ps[0]] + ps[1..];
      }
      if ps[0].sourceId == id then rest
      else
        assert multiset([ps[0]] + rest) == multiset{ps[0]} + multiset(rest);
        [ps[0]] + rest
  }

  /** Filtering distributes over concatenation, so the kept records keep
      their relative order. */
  lemma {:induction false} WithoutSourceAppend(a: seq<Pair>, b: seq<Pair>, id: string)
    ensures WithoutSource(a + b, id) == WithoutSource(a, id) + WithoutSource(b, id)
    decreases |a|
  {
    if |a| == 0 {
      assert a + b == b;
    } else {
      assert (a + b)[1..] == a[1..] + b;
      WithoutSourceAppend(a[1..], b, id);
    }
  }

  /** `ids.filter(p => p !== id)`: a string never equals `undefined`. */
  function WithoutId(ids: seq<string>, id: Option<string>): (r: seq<string>)
    ensures forall x :: x in r <==> x in ids && Some(x) != id
    ensures id.None? ==> r == ids
    // every kept id keeps its multiplicity; the removed id occurs zero times
    ensures forall x :: multiset(r)[x] == if Some(x) != id then multiset(ids)[x] else 0
    decreases |ids|
  {
    if |ids| == 0 then []
    else
      var rest := WithoutId(ids[1..], id);
      assert multiset(ids) == multiset{ids[0]} + multiset(ids[1..]) by {
        assert ids == [ids[0]] + ids[1..];
      }
      if Some(ids[0]) == id then rest
      else
        assert multiset([ids[0]] + rest) == multiset{ids[0]} + multiset(rest);
        [ids[0]] + rest
  }

  /** Filtering distributes over concatenation, so the kept ids keep their
      relative order. */
  lemma {:induction false} WithoutIdAppend(a: seq<string>, b: seq<string>, id: Option<string>)
    ensures WithoutId(a + b, id) == WithoutId(a, id) + WithoutId(b, id)
    decreases |a|
  {
    if |a| == 0 {
      assert a + b == b;
    } else {
      assert (a + b)[1..] == a[1..] + b;
      WithoutIdAppend(a[1..], b, id);
    }
  }

  /** `removeTranslatedElement(doc, sourceId, languageName, kind)`, settings
      part. Both keys are read first; then the generated-id list loses the
      matched copy's id (when a pair matched and the list is non-empty), and
      the pair list is rewritten without the source. */
  function Remove(doc: Settings, sourceId: string, languageName: string, kind: string): Settings {
    var elements := Get(doc, LanguageKey(languageName, kind));
    var translated := Get(doc, TranslatedKey(kind));
    if !Truthy(elements) then doc
    else
      var arr := ParsePairs(elements.value);
      var doc' :=
        match FindSource(arr, sourceId)
        case Some(found) =>
          if Truthy(translated) then
            doc[TranslatedKey(kind) := Join(WithoutId(Split(translated.value, ","), found.translatedId), ",")]
          else doc
        case None => doc;
      doc'[LanguageKey(languageName, kind) := SerializePairs(WithoutSource(arr, sourceId))]
  }

  /** `addTranslatedElement(doc, sourceId, translatedId, languageName, kind)`.
      An empty pair list starts both values afresh; otherwise both get a
      `,`-separated suffix (and a missing id list prints as `undefined`). */
  function Add(doc: Settings, sourceId: string, translatedId: string, languageName: string, kind: string): Settings {
    var elements := Get(doc, LanguageKey(languageName, kind));
    var translated := Get(doc, TranslatedKey(kind));
    var pair := sourceId + "=>" + translatedId;
    var elements' := if !Truthy(elements) then pair else elements.value + "," + pair;
    var translated' := if !Truthy(elements) then translatedId else Show(translated) + "," + translatedId;
    doc[LanguageKey(languageName, kind) := elements'][TranslatedKey(kind) := translated']
  }

  /** `getListOfTranslatedElements(doc, kind)`. */
  function GetList(doc: Settings, kind: string): seq<string> {
    var translated := Get(doc, TranslatedKey(kind));
    if !Truthy(translated) then [] else Split(translated.value, ",")
  }

  /** `doc'` agrees with `doc` on every key but `a` and `b`. */
  ghost predicate SameExcept(doc: Settings, doc': Settings, a: string, b: string) {
    forall k :: k != a && k != b ==> Get(doc', k) == Get(doc, k)
  }

  /** Adding touches only the pair list and the id list. */
  lemma AddFrame(doc: Settings, sourceId: string, translatedId: string, languageName: string, kind: string)
    ensures SameExcept(doc, Add(doc, sourceId, translatedId, languageName, kind),
                       LanguageKey(languageName, kind), TranslatedKey(kind))
  {
  }

  /** Removing touches only the pair list and the id list. */
  lemma RemoveFrame(doc: Settings, sourceId: string, languageName: string, kind: string)
    ensures SameExcept(doc, Remove(doc, sourceId, languageName, kind),
                       LanguageKey(languageName, kind), TranslatedKey(kind))
  {
  }

  /** Without a pair list there is nothing to remove. */
  lemma RemoveWithoutList(doc: Settings, sourceId: string, languageName: string, kind: string)
    requires !Truthy(Get(doc, LanguageKey(languageName, kind)))
    ensures Remove(doc, sourceId, languageName, kind) == doc
  {
  }

  /** The id list is empty exactly when its setting is missing or empty, and
      otherwise holds the stored ids in order. */
  lemma GetListShape(doc: Settings, kind: string)
    ensures GetList(doc, kind) == [] <==> !Truthy(Get(doc, TranslatedKey(kind)))
    ensures Truthy(Get(doc, TranslatedKey(kind))) ==>
      Join(GetList(doc, kind), ",") == doc[TranslatedKey(kind)]
  {
    if Truthy(Get(doc, TranslatedKey(kind))) {
      JoinSplit(doc[TranslatedKey(kind)], ",");
    }
  }

  /** After an add, the id list is: just the new id when the pair list was
      empty; otherwise the old list (a missing one reads as the single id
      `undefined`) followed by the new id. */
  lemma AddThenList(doc: Settings, sourceId: string, translatedId: string, languageName: string, kind: string)
    requires translatedId != "" && NoChar(translatedId, ',')
    ensures var list := GetList(Add(doc, sourceId, translatedId, languageName, kind), kind);
      && (!Truthy(Get(doc, LanguageKey(languageName, kind))) ==> list == [translatedId])
      && (Truthy(Get(doc, LanguageKey(languageName, kind))) ==>
            list == Split(Show(Get(doc, TranslatedKey(kind))), ",") + [translatedId])
      && list[|list| - 1] == translatedId
  {
    var translated' := Get(Add(doc, sourceId, translatedId, languageName, kind), TranslatedKey(kind));
    if !Truthy(Get(doc, LanguageKey(languageName, kind))) {
      CharFree(translatedId, ',');
    } else {
      SplitAppend(Show(Get(doc, TranslatedKey(kind))), ',', translatedId);
    }
  }

  /** After an add, the language's pair list is `s=>t` when it was empty,
      otherwise the previous value followed by `,s=>t`; for a clean pair it
      parses back as the previous records followed by the new one. */
  lemma AddThenPairs(doc: Settings, s: string, t: string, languageName: string, kind: string)
    ensures LanguageKey(languageName, kind) != TranslatedKey(kind) ==>
      var before := Get(doc, LanguageKey(languageName, kind));
      var v := Get(Add(doc, s, t, languageName, kind), LanguageKey(languageName, kind));
      && v.Some?
      && (!Truthy(before) ==> v.value == s + "=>" + t)
      && (Truthy(before) ==> v.value == before.value + "," + s + "=>" + t)
    ensures LanguageKey(languageName, kind) != TranslatedKey(kind) && Clean(Pair(s, Some(t))) ==>
      var before := Get(doc, LanguageKey(languageName, kind));
      var v := Get(Add(doc, s, t, languageName, kind), LanguageKey(languageName, kind));
      && (!Truthy(before) ==> ParsePairs(v.value) == [Pair(s, Some(t))])
      && (Truthy(before) ==> ParsePairs(v.value) == ParsePairs(before.value) + [Pair(s, Some(t))])
  {
    var before := Get(doc, LanguageKey(languageName, kind));
    var pair := s + "=>" + t;
    if LanguageKey(languageName, kind) != TranslatedKey(kind) && Clean(Pair(s, Some(t))) {
      ArrowSplitJoin(s, t);
      assert ParsePair(pair) == Pair(s, Some(t));
      assert NoChar(pair, ',') by {
        assert forall i :: 0 <= i < |pair| ==> pair[i] == (if i < |s| then s[i] else if i < |s| + 2 then "=>"[i - |s|] else t[i - |s| - 2]);
      }
      if Truthy(before) {
        SplitAppend(before.value, ',', pair);
        assert before.value + "," + pair == before.value + [','] + pair;
      } else {
        CharFree(pair, ',');
      }
    }
  }

  /** A pair that prints and parses back unchanged: both ids present, and
      neither holds a `,` or a `=>`. */
  predicate Clean(p: Pair) {
    && p.translatedId.Some?
    && NoChar(p.sourceId, ',') && NoChar(p.translatedId.value, ',')
    && IndexOf(p.sourceId, "=>").None? && IndexOf(p.translatedId.value, "=>").None?
  }

  /** A stored pair list whose every segment has exactly one `=>`. */
  predicate WellFormed(v: string) {
    forall k :: 0 <= k < |Split(v, ",")| ==> |Split(Split(v, ",")[k], "=>")| == 2
  }

  /** Printing a non-empty list of clean pairs and parsing it again gives
      back the list. */
  lemma ReparsePairs(qs: seq<Pair>)
    requires |qs| >= 1 && forall k :: 0 <= k < |qs| ==> Clean(qs[k])
    ensures ParsePairs(SerializePairs(qs)) == qs
  {
    var segments := seq(|qs|, k requires 0 <= k < |qs| => SerializePair(qs[k]));
    forall k | 0 <= k < |qs|
      ensures NoChar(segments[k], ',') && ParsePair(segments[k]) == qs[k]
    {
      ArrowSplitJoin(qs[k].sourceId, qs[k].translatedId.value);
    }
    SplitJoin(segments, ',');
  }

  /** What a pair reads back as once printed and parsed again: a missing
      copy id prints as `undefined` and comes back as that text. */
  function Reprinted(p: Pair): (q: Pair)
    ensures q.sourceId == p.sourceId && q.translatedId.Some?
    ensures p.translatedId.Some? ==> q == p
    ensures SerializePair(q) == SerializePair(p)
  {
    Pair(p.sourceId, Some(Show(p.translatedId)))
  }

  function ReprintAll(ps: seq<Pair>): (r: seq<Pair>)
    ensures |r| == |ps| && forall k :: 0 <= k < |ps| ==> r[k] == Reprinted(ps[k])
  {
    seq(|ps|, k requires 0 <= k < |ps| => Reprinted(ps[k]))
  }

  /** Every pair parsed from a stored list is clean once reprinted: its ids
      are pieces of the `,` and `=>` splits, and `undefined` holds neither
      separator. */
  lemma ParsedClean(v: string, k: nat)
    requires k < |Split(v, ",")|
    ensures Clean(Reprinted(ParsePairs(v)[k]))
  {
    var segment := Split(v, ",")[k];
    SplitPiecesFree(v, ",");
    CharFree(segment, ',');
    SplitNoChar(segment, "=>", ',');
    SplitPiecesFree(segment, "=>");
    assert NoChar("undefined", ',') && NoChar("undefined", '=');
    CharFree("undefined", ',');
    IndexOfFirstChar("undefined", "=>");
  }

  /** Printing pairs taken from a parsed list and parsing the text again
      gives them back, reprinted. */
  lemma ReparseParsed(v: string, ps: seq<Pair>)
    requires |ps| >= 1 && forall p :: p in ps ==> p in ParsePairs(v)
    ensures ParsePairs(SerializePairs(ps)) == ReprintAll(ps)
  {
    var arr := ParsePairs(v);
    var reprinted := ReprintAll(ps);
    forall k | 0 <= k < |ps|
      ensures Clean(reprinted[k])
    {
      assert ps[k] in ps;
      var j :| 0 <= j < |arr| && arr[j] == ps[k];
      ParsedClean(v, j);
    }
    assert seq(|ps|, k requires 0 <= k < |ps| => SerializePair(ps[k]))
        == seq(|reprinted|, k requires 0 <= k < |reprinted| => SerializePair(reprinted[k]));
    ReparsePairs(reprinted);
  }

  /** A pair parsed from a segment that holds a `=>` has a copy id. */
  lemma ParsedWithArrow(v: string, ps: seq<Pair>)
    requires forall k :: 0 <= k < |Split(v, ",")| ==> |Split(Split(v, ",")[k], "=>")| >= 2
    requires forall p :: p in ps ==> p in ParsePairs(v)
    ensures ReprintAll(ps) == ps
  {
    var arr := ParsePairs(v);
    forall k | 0 <= k < |ps|
      ensures ps[k].translatedId.Some?
    {
      assert ps[k] in ps;
      var j :| 0 <= j < |arr| && arr[j] == ps[k];
    }
  }

  /** The pair list a remove writes back: empty when no other record was
      left; otherwise it reads back as the other records in their order
      (each missing copy id now the text `undefined`), so no record has the
      removed source id. When every stored segment has a `=>`, it reads back
      as exactly the other records. */
  lemma RemoveKeepsOthers(doc: Settings, sourceId: string, languageName: string, kind: string)
    requires Truthy(Get(doc, LanguageKey(languageName, kind)))
    ensures var v := doc[LanguageKey(languageName, kind)];
      var kept := WithoutSource(ParsePairs(v), sourceId);
      var left := Remove(doc, sourceId, languageName, kind)[LanguageKey(languageName, kind)];
      && (kept == [] ==> left == "")
      && (kept != [] ==> ParsePairs(left) == ReprintAll(kept))
      && (kept != [] ==> forall k :: 0 <= k < |ParsePairs(left)| ==> ParsePairs(left)[k].sourceId != sourceId)
      && (kept != [] && (forall k :: 0 <= k < |Split(v, ",")| ==> |Split(Split(v, ",")[k], "=>")| >= 2)
          ==> ParsePairs(left) == kept)
  {
    var v := doc[LanguageKey(languageName, kind)];
    var kept := WithoutSource(ParsePairs(v), sourceId);
    var left := Remove(doc, sourceId, languageName, kind)[LanguageKey(languageName, kind)];
    assert left == SerializePairs(kept);
    if kept != [] {
      KeptReadsBack(v, kept, sourceId);
    }
  }

  /** Records taken from a parsed list, none with the removed source id,
      read back once printed as themselves reprinted, still without that
      source id. */
  lemma KeptReadsBack(v: string, kept: seq<Pair>, sourceId: string)
    requires |kept| >= 1 && forall p :: p in kept ==> p in ParsePairs(v) && p.sourceId != sourceId
    ensures ParsePairs(SerializePairs(kept)) == ReprintAll(kept)
    ensures forall k :: 0 <= k < |ReprintAll(kept)| ==> ReprintAll(kept)[k].sourceId != sourceId
    ensures (forall k :: 0 <= k < |Split(v, ",")| ==> |Split(Split(v, ",")[k], "=>")| >= 2) ==> ReprintAll(kept) == kept
  {
    ReparseParsed(v, kept);
    forall k | 0 <= k < |kept|
      ensures ReprintAll(kept)[k].sourceId != sourceId
    {
      assert kept[k] in kept;
    }
    if forall k :: 0 <= k < |Split(v, ",")| ==> |Split(Split(v, ",")[k], "=>")| >= 2 {
      ParsedWithArrow(v, kept);
    }
  }

  /** Ids split off at commas still have no comma once one id is removed. */
  lemma KeptIdsCommaFree(ids: seq<string>, id: Option<string>)
    requires forall k :: 0 <= k < |ids| ==> IndexOf(ids[k], ",").None?
    ensures forall k :: 0 <= k < |WithoutId(ids, id)| ==> NoChar(WithoutId(ids, id)[k], ',')
  {
    var kept := WithoutId(ids, id);
    forall k | 0 <= k < |kept|
      ensures NoChar(kept[k], ',')
    {
      assert kept[k] in kept;
      var j :| 0 <= j < |ids| && ids[j] == kept[k];
      CharFree(ids[j], ',');
    }
  }

  /** When a pair matched, the id list loses every occurrence of its copy's
      id and keeps the other ids in order. */
  lemma RemoveDropsCopy(doc: Settings, sourceId: string, languageName: string, kind: string)
    requires LanguageKey(languageName, kind) != TranslatedKey(kind)
    requires Truthy(Get(doc, LanguageKey(languageName, kind)))
    requires Truthy(Get(doc, TranslatedKey(kind)))
    requires FindSource(ParsePairs(doc[LanguageKey(languageName, kind)]), sourceId).Some?
    ensures var found := FindSource(ParsePairs(doc[LanguageKey(languageName, kind)]), sourceId).value;
      var kept := WithoutId(GetList(doc, kind), found.translatedId);
      && Remove(doc, sourceId, languageName, kind)[TranslatedKey(kind)] == Join(kept, ",")
      && (kept != [] ==> Split(Remove(doc, sourceId, languageName, kind)[TranslatedKey(kind)], ",") == kept)
  {
    var found := FindSource(ParsePairs(doc[LanguageKey(languageName, kind)]), sourceId).value;
    var ids := GetList(doc, kind);
    var kept := WithoutId(ids, found.translatedId);
    if kept != [] {
      SplitPiecesFree(doc[TranslatedKey(kind)], ",");
      KeptIdsCommaFree(ids, found.translatedId);
      SplitJoin(kept, ',');
    }
  }

  /** When no pair matched, the id list is left alone. */
  lemma RemoveUnmatchedKeepsIds(doc: Settings, sourceId: string, languageName: string, kind: string)
    requires LanguageKey(languageName, kind) != TranslatedKey(kind)
    requires Truthy(Get(doc, LanguageKey(languageName, kind)))
    requires FindSource(ParsePairs(doc[LanguageKey(languageName, kind)]), sourceId).None?
    ensures Get(Remove(doc, sourceId, languageName, kind), TranslatedKey(kind)) == Get(doc, TranslatedKey(kind))
  {
  }

  /** Parsing a well-formed pair list and printing it again is the identity. */
  lemma PrintParsed(v: string)
    requires WellFormed(v)
    ensures SerializePairs(ParsePairs(v)) == v
  {
    var segments := Split(v, ",");
    var ps := ParsePairs(v);
    var printed := seq(|ps|, k requires 0 <= k < |ps| => SerializePair(ps[k]));
    forall k | 0 <= k < |segments|
      ensures printed[k] == segments[k]
    {
      var parts := Split(segments[k], "=>");
      JoinSplit(segments[k], "=>");
      assert Join(parts, "=>") == parts[0] + "=>" + parts[1];
    }
    assert printed == segments;
    JoinSplit(v, ",");
  }

  /** Removing a source that no pair of a well-formed list mentions leaves
      the settings exactly as they were. */
  lemma RemoveAbsentIsNoOp(doc: Settings, sourceId: string, languageName: string, kind: string)
    requires Truthy(Get(doc, LanguageKey(languageName, kind)))
    requires WellFormed(doc[LanguageKey(languageName, kind)])
    requires FindSource(ParsePairs(doc[LanguageKey(languageName, kind)]), sourceId).None?
    ensures Remove(doc, sourceId, languageName, kind) == doc
  {
    PrintParsed(doc[LanguageKey(languageName, kind)]);
  }
}

=== FILE: numbers.dfy ===
/** JavaScript's `parseInt` with no radix, and the decimal text of an integer
    as a template literal prints it. */
module Numbers {
  import opened Wrappers

  /** The value of a character as a digit in bases up to 36: `0`-`9`, then
      `a`-`z` or `A`-`Z` from 10; 36 for any other character. */
  function DigitValue(c: char): (d: nat)
    ensures d <= 36
  {
    if '0' <= c <= '9' then c as nat - '0' as nat
    else if 'a' <= c <= 'z' then c as nat - 'a' as nat + 10
    else if 'A' <= c <= 'Z' then c as nat - 'A' as nat + 10
    else 36
  }

  /** The white space and line terminators `parseInt` skips at the start. */
  predicate IsSpace(c: char) {
    c as int in {0x09, 0x0A, 0x0B, 0x0C, 0x0D, 0x20, 0xA0, 0x2028, 0x2029, 0xFEFF}
  }

  /** `s` without its leading white space. */
  function TrimStart(s: string): (r: string)
    ensures |r| <= |s| && r == s[|s| - |r|..]
    ensures |r| > 0 ==> !IsSpace(r[0])
    decreases |s|
  {
    if |s| > 0 && IsSpace(s[0]) then TrimStart(s[1..]) else s
  }

  /** The longest prefix of `s` made of digits of base `radix`. */
  function LeadingDigits(s: string, radix: nat): (ds: string)
    ensures |ds| <= |s| && ds == s[..|ds|]
    ensures forall i :: 0 <= i < |ds| ==> DigitValue(ds[i]) < radix
    ensures |ds| < |s| ==> DigitValue(s[|ds|]) >= radix
    decreases |s|
  {
    if |s| > 0 && DigitValue(s[0]) < radix then
      var rest := LeadingDigits(s[1..], radix);
      assert [s[0]] + rest == s[..|rest| + 1];
      [s[0]] + rest
    else ""
  }

  /** The number the digits `ds` spell in base `radix`. */
  function DigitsValue(ds: string, radix: nat): nat
    decreases |ds|
  {
    if |ds| == 0 then 0
    else DigitsValue(ds[..|ds| - 1], radix) * radix + DigitValue(ds[|ds| - 1])
  }

  /** The unsigned part of `parseInt`: base 16 after a `0x` or `0X` prefix,
      else base 10, reading the longest run of digits; `None` when there is
      no digit. */
  function ParseUnsigned(u: string): (r: Option<nat>)
    ensures |u| == 0 || DigitValue(u[0]) >= 10 ==> r.None?
  {
    var hex := |u| >= 2 && u[0] == '0' && (u[1] == 'x' || u[1] == 'X');
    var radix := if hex then 16 else 10;
    var ds := LeadingDigits(if hex then u[2..] else u, radix);
    if |ds| == 0 then None else Some(DigitsValue(ds, radix))
  }

  /** `parseInt(s)`: skip leading white space, read an optional sign, then
      the unsigned part; `None` stands for NaN. */
  function ParseInt(s: string): (r: Option<int>)
    ensures |TrimStart(s)| == 0 ==> r.None?
  {
    var t := TrimStart(s);
    if |t| > 0 && t[0] == '-' then
      match ParseUnsigned(t[1..])
      case None => None
      case Some(v) => Some(0 - v)
    else if |t| > 0 && t[0] == '+' then
      match ParseUnsigned(t[1..])
      case None => None
      case Some(v) => Some(v)
    else
      match ParseUnsigned(t)
      case None => None
      case Some(v) => Some(v)
  }

  /** The decimal digits of a natural number, most significant first. */
  function NatDigits(n: nat): (s: string)
    ensures |s| >= 1
    ensures forall i :: 0 <= i < |s| ==> DigitValue(s[i]) < 10
    ensures DigitsValue(s, 10) == n
    decreases n
  {
    var last := ('0' as nat + n % 10) as char;
    if n < 10 then
      assert [last][..0] == [];
      [last]
    else
      var init := NatDigits(n / 10);
      assert (init + [last])[..|init|] == init;
      init + [last]
  }

  /** `${n}` for an integer `n`. */
  function Show(n: int): (s: string)
    ensures |s| >= 1
    ensures forall i :: 0 <= i < |s| ==> s[i] != '['
  {
    if n < 0 then "-" + NatDigits(-n) else NatDigits(n)
  }

  /** The leading digits of a string made only of digits are all of it. */
  lemma {:induction false} AllLeadingDigits(s: string, radix: nat)
    requires forall i :: 0 <= i < |s| ==> DigitValue(s[i]) < radix
    ensures LeadingDigits(s, radix) == s
    decreases |s|
  {
    if |s| > 0 {
      AllLeadingDigits(s[1..], radix);
    }
  }

  /** A character that is a decimal digit is no white space, no sign and
      no `x`. */
  lemma DecimalDigitChar(c: char)
    requires DigitValue(c) < 10
    ensures '0' <= c <= '9' && !IsSpace(c) && c != 'x' && c != 'X' && c != '-'
  {
  }

  /** A run of decimal digits reads as its value. */
  lemma ParseDigits(ds: string)
    requires |ds| >= 1 && forall i :: 0 <= i < |ds| ==> DigitValue(ds[i]) < 10
    ensures ParseUnsigned(ds) == Some(DigitsValue(ds, 10))
  {
    if |ds| >= 2 {
      DecimalDigitChar(ds[1]);
    }
    var hex := |ds| >= 2 && ds[0] == '0' && (ds[1] == 'x' || ds[1] == 'X');
    assert !hex;
    AllLeadingDigits(ds, 10);
    assert LeadingDigits(ds, 10) == ds;
  }

  /** Text starting with a decimal digit or a minus sign has no leading
      white space to skip. */
  lemma TrimStartKeeps(s: string)
    requires |s| > 0 && (s[0] == '-' || DigitValue(s[0]) < 10)
    ensures TrimStart(s) == s
  {
    if s[0] != '-' {
      DecimalDigitChar(s[0]);
    }
  }

  /** `parseInt` reads back the number a template literal prints. */
  lemma ParseShow(n: int)
    ensures ParseInt(Show(n)) == Some(n)
  {
    var s := Show(n);
    TrimStartKeeps(s);
    if n < 0 {
      var digits := NatDigits(-n);
      ParseDigits(digits);
      assert s[1..] == digits;
    } else {
      ParseDigits(s);
      DecimalDigitChar(s[0]);
    }
  }
}

=== FILE: screenshots.dfy ===
/** Reconciliation of the stored screenshot tags before an upload
    (`uploadScreenshots` in `src/action/upload-screenshots.js`): tags whose
    string, artboard, text element or page has gone are dropped, the
    survivors on the selected page are paired with their text element, and
    those pairs are grouped by artboard, one screenshot per group.

    Host objects are reduced to the ids the reconciliation compares; the text
    elements of an artboard (`getTextElementsInArtboard`) are given with the
    artboard. */
module Screenshots {
  import opened Wrappers

  /** A stored tag: the text element it marks (`id`, `type`), the source
      string it belongs to, and where the element lives. */
  datatype Tag = Tag(id: string, kind: string, stringId: int, pageId: string, artboardId: string)

  /** A text element of an artboard. */
  datatype TextElement = TextElement(textId: string, kind: string)

  /** An artboard of the selected page with its text elements. */
  datatype Artboard = Artboard(id: string, texts: seq<TextElement>)

  /** An entry of `tempTags`: a surviving tag and the element it matched. */
  datatype Pending = Pending(tag: Tag, element: TextElement)

  /** One screenshot to send: the artboard and its pending tags. */
  datatype Group = Group(artboardId: string, artboard: Option<Artboard>, tags: seq<Pending>)

  /** What the reconciliation looks at in the document: the selected page,
      the ids of all pages, and the selected page's non-generated artboards. */
  datatype Scene = Scene(selectedPage: string, pageIds: seq<string>, artboards: seq<Artboard>)

  /** `a` is `b` with some elements left out and the rest in their order. */
  predicate IsSubsequence<T(==)>(a: seq<T>, b: seq<T>)
    decreases |b|
  {
    if |b| == 0 then |a| == 0
    else
      || (|a| > 0 && a[|a| - 1] == b[|b| - 1] && IsSubsequence(a[..|a| - 1], b[..|b| - 1]))
      || IsSubsequence(a, b[..|b| - 1])
  }

  /** Leaving elements out twice is leaving elements out once. */
  lemma {:induction false} SubsequenceTrans<T>(a: seq<T>, b: seq<T>, c: seq<T>)
    requires IsSubsequence(a, b) && IsSubsequence(b, c)
    ensures IsSubsequence(a, c)
    decreases |c|
  {
    if |c| > 0 {
      var c' := c[..|c| - 1];
      if IsSubsequence(b, c') {
        SubsequenceTrans(a, b, c');
      } else {
        var b' := b[..|b| - 1];
        if |a| > 0 && a[|a| - 1] == b[|b| - 1] && IsSubsequence(a[..|a| - 1], b') {
          SubsequenceTrans(a[..|a| - 1], b', c');
        } else {
          SubsequenceTrans(a, b', c');
        }
      }
    }
  }

  /** Keeping the last element on top of a subsequence of the rest. */
  lemma SubsequenceSnoc<T>(a: seq<T>, b: seq<T>, x: T)
    requires IsSubsequence(a, b)
    ensures IsSubsequence(a + [x], b + [x]) && IsSubsequence(a, b + [x])
  {
    assert (a + [x])[..|a|] == a;
    assert (b + [x])[..|b|] == b;
  }

  /** The ids of some artboards, in order. */
  function Ids(boards: seq<Artboard>): (ids: seq<string>)
    ensures |ids| == |boards|
    ensures forall k :: 0 <= k < |boards| ==> ids[k] == boards[k].id
  {
    seq(|boards|, k requires 0 <= k < |boards| => boards[k].id)
  }

  /** The artboards of the page that are not generated translations. */
  function LiveArtboards(boards: seq<Artboard>, generated: seq<string>): (r: seq<Artboard>)
    ensures forall a :: a in r <==> a in boards && a.id !in generated
    ensures IsSubsequence(r, boards)
    decreases |boards|
  {
    if |boards| == 0 then []
    else
      var init := boards[..|boards| - 1];
      var last := boards[|boards| - 1];
      var rest := LiveArtboards(init, generated);
      assert boards == init + [last];
      SubsequenceSnoc(rest, init, last);
      if last.id in generated then rest else rest + [last]
  }

  /** The first filter: the tag's string still exists, and a tag of the
      selected page is on one of its live artboards. */
  predicate Current(t: Tag, stringIds: seq<int>, selectedPage: string, liveIds: seq<string>) {
    t.stringId in stringIds && (t.pageId != selectedPage || t.artboardId in liveIds)
  }

  /** The two chained filters that drop obsolete tags; they keep a tag
      exactly when it passes both. */
  function DropObsolete(tags: seq<Tag>, stringIds: seq<int>, selectedPage: string, liveIds: seq<string>): (r: seq<Tag>)
    ensures forall t :: t in r <==> t in tags && Current(t, stringIds, selectedPage, liveIds)
    ensures IsSubsequence(r, tags)
    decreases |tags|
  {
    if |tags| == 0 then []
    else
      var init := tags[..|tags| - 1];
      var last := tags[|tags| - 1];
      var rest := DropObsolete(init, stringIds, selectedPage, liveIds);
      assert tags == init + [last];
      SubsequenceSnoc(rest, init, last);
      if Current(last, stringIds, selectedPage, liveIds) then rest + [last] else rest
  }

  /** `artboards.find(a => a.id === id)`. */
  function FindArtboard(boards: seq<Artboard>, id: string): (r: Option<Artboard>)
    ensures r.Some? ==> r.value in boards && r.value.id == id
    ensures r.None? <==> forall k :: 0 <= k < |boards| ==> boards[k].id != id
    // the match returned is the first one
    ensures forall k :: (0 <= k < |boards| && boards[k].id == id && forall j :: 0 <= j < k ==> boards[j].id != id) ==>
                        r == Some(boards[k])
    decreases |boards|
  {
    if |boards| == 0 then None
    else if boards[0].id == id then Some(boards[0])
    else
      assert forall k :: 1 <= k < |boards| ==> boards[k] == boards[1..][k - 1];
      FindArtboard(boards[1..], id)
  }

  /** `texts.find(t => t.textId === tag.id && t.type === tag.type)`. */
  function FindText(texts: seq<TextElement>, t: Tag): (r: Option<TextElement>)
    ensures r.Some? ==> r.value in texts && r.value.textId == t.id && r.value.kind == t.kind
    ensures r.None? <==> forall e :: e in texts ==> e.textId != t.id || e.kind != t.kind
    // the match returned is the first one
    ensures forall k :: (0 <= k < |texts| && texts[k].textId == t.id && texts[k].kind == t.kind &&
                         forall j :: 0 <= j < k ==> texts[j].textId != t.id || texts[j].kind != t.kind) ==>
                        r == Some(texts[k])
    decreases |texts|
  {
    if |texts| == 0 then None
    else if texts[0].textId == t.id && texts[0].kind == t.kind then Some(texts[0])
    else
      var r := FindText(texts[1..], t);
      assert texts == [texts[0]] + texts[1..];
      assert forall k :: 1 <= k < |texts| ==> texts[k] == texts[1..][k - 1];
      r
  }

  /** The text element a tag of the selected page marks, if its artboard and
      the element are still there. */
  function Element(t: Tag, sc: Scene): Option<TextElement> {
    if t.pageId != sc.selectedPage then None
    else
      match FindArtboard(sc.artboards, t.artboardId)
      case None => None
      case Some(b) => FindText(b.texts, t)
  }

  /** The second filter: a tag of another page survives when its page still
      exists; a tag of the selected page when its element was found. */
  predicate Survives(t: Tag, sc: Scene) {
    if t.pageId != sc.selectedPage then t.pageId in sc.pageIds else Element(t, sc).Some?
  }

  /** The tags the second filter keeps, in order. */
  function Matched(tags: seq<Tag>, sc: Scene): (r: seq<Tag>)
    ensures forall t :: t in r <==> t in tags && Survives(t, sc)
    ensures IsSubsequence(r, tags)
    decreases |tags|
  {
    if |tags| == 0 then []
    else
      var init := tags[..|tags| - 1];
      var last := tags[|tags| - 1];
      var rest := Matched(init, sc);
      assert tags == init + [last];
      SubsequenceSnoc(rest, init, last);
      if Survives(last, sc) then rest + [last] else rest
  }

  /** The entries the second filter pushes onto `tempTags`, in order. */
  function Pairs(tags: seq<Tag>, sc: Scene): (r: seq<Pending>)
    ensures forall p :: p in r ==> p.tag in tags && Element(p.tag, sc) == Some(p.element)
    ensures forall t :: t in tags && Element(t, sc).Some? ==> Pending(t, Element(t, sc).value) in r
    decreases |tags|
  {
    if |tags| == 0 then []
    else
      var init := tags[..|tags| - 1];
      var last := tags[|tags| - 1];
      var rest := Pairs(init, sc);
      assert tags == init + [last];
      match Element(last, sc)
      case Some(e) => rest + [Pending(last, e)]
      case None => rest
  }

  /** The second filter as the source runs it: one pass that decides each
      tag and records the matched element of every kept selected-page tag. */
  method MatchTags(tags: seq<Tag>, sc: Scene) returns (saved: seq<Tag>, temp: seq<Pending>)
    ensures saved == Matched(tags, sc)
    ensures temp == Pairs(tags, sc)
  {
    saved := [];
    temp := [];
    var i := 0;
    while i < |tags|
      invariant 0 <= i <= |tags|
      invariant saved == Matched(tags[..i], sc)
      invariant temp == Pairs(tags[..i], sc)
    {
      var t := tags[i];
      assert tags[..i + 1][..i] == tags[..i];
      var keep: bool;
      if t.pageId != sc.selectedPage {
        keep := t.pageId in sc.pageIds;
      } else {
        var board := FindArtboard(sc.artboards, t.artboardId);
        if board.Some? {
          var found := FindText(board.value.texts, t);
          if found.Some? {
            temp := temp + [Pending(t, found.value)];
          }
          keep := found.Some?;
        } else {
          keep := false;
        }
      }
      if keep {
        saved := saved + [t];
      }
      i := i + 1;
    }
    assert tags[..i] == tags;
  }

  /** The pending entries on one artboard, in order. */
  function OnArtboard(temp: seq<Pending>, id: string): (r: seq<Pending>)
    ensures forall p :: p in r <==> p in temp && p.tag.artboardId == id
    decreases |temp|
  {
    if |temp| == 0 then []
    else
      var init := temp[..|temp| - 1];
      var last := temp[|temp| - 1];
      assert temp == init + [last];
      if last.tag.artboardId == id then OnArtboard(init, id) + [last] else OnArtboard(init, id)
  }

  /** The artboard ids of some groups, in order. */
  function GroupIds(groups: seq<Group>): (ids: seq<string>)
    ensures |ids| == |groups|
    ensures forall i :: 0 <= i < |groups| ==> ids[i] == groups[i].artboardId
  {
    seq(|groups|, i requires 0 <= i < |groups| => groups[i].artboardId)
  }

  /** The index of the group for an artboard, if there is one yet. */
  function GroupIndex(groups: seq<Group>, id: string): (r: Option<nat>)
    ensures r.Some? ==> r.value < |groups| && groups[r.value].artboardId == id
    ensures r.None? <==> id !in GroupIds(groups)
    decreases |groups|
  {
    if |groups| == 0 then None
    else if groups[|groups| - 1].artboardId == id then Some(|groups| - 1)
    else
      assert GroupIds(groups) == GroupIds(groups[..|groups| - 1]) + [groups[|groups| - 1].artboardId];
      GroupIndex(groups[..|groups| - 1], id)
  }

  /** The groups' ids are pairwise different. */
  predicate DistinctIds(groups: seq<Group>) {
    forall i, j :: 0 <= i < j < |groups| ==> groups[i].artboardId != groups[j].artboardId
  }

  /** `groups` partitions `temp` by artboard: every entry lands in exactly
      one group, each group holds exactly its artboard's entries in their
      order with its artboard looked up, and no group is empty. */
  predicate Grouped(temp: seq<Pending>, boards: seq<Artboard>, groups: seq<Group>) {
    && DistinctIds(groups)
    && (forall i :: 0 <= i < |groups| ==> groups[i].tags == OnArtboard(temp, groups[i].artboardId))
    && (forall i :: 0 <= i < |groups| ==> |groups[i].tags| > 0)
    && (forall i :: 0 <= i < |groups| ==> groups[i].artboard == FindArtboard(boards, groups[i].artboardId))
    && (forall p :: p in temp ==> p.tag.artboardId in GroupIds(groups))
  }

  /** Filtering one more entry by artboard. */
  lemma OnArtboardSnoc(init: seq<Pending>, p: Pending, id: string)
    ensures OnArtboard(init + [p], id) ==
      if p.tag.artboardId == id then OnArtboard(init, id) + [p] else OnArtboard(init, id)
  {
    assert (init + [p])[..|init|] == init;
  }

  /** No entry is on an artboard none of the entries is on. */
  lemma {:induction false} OnArtboardNone(temp: seq<Pending>, id: string)
    requires forall p :: p in temp ==> p.tag.artboardId != id
    ensures OnArtboard(temp, id) == []
    decreases |temp|
  {
    if |temp| > 0 {
      OnArtboardNone(temp[..|temp| - 1], id);
    }
  }

  /** One step of the `reduce`. */
  function AddToGroups(groups: seq<Group>, p: Pending, boards: seq<Artboard>): seq<Group> {
    var id := p.tag.artboardId;
    match GroupIndex(groups, id)
    case Some(i) => groups[i := groups[i].(tags := groups[i].tags + [p])]
    case None => groups + [Group(id, FindArtboard(boards, id), [p])]
  }

  /** An entry whose artboard has a group joins the end of that group. */
  lemma AddJoins(init: seq<Pending>, p: Pending, boards: seq<Artboard>, before: seq<Group>, i: nat)
    requires Grouped(init, boards, before)
    requires i < |before| && before[i].artboardId == p.tag.artboardId
    ensures Grouped(init + [p], boards, before[i := before[i].(tags := before[i].tags + [p])])
  {
    var groups := before[i := before[i].(tags := before[i].tags + [p])];
    assert GroupIds(groups) == GroupIds(before);
    forall j | 0 <= j < |groups|
      ensures groups[j].tags == OnArtboard(init + [p], groups[j].artboardId)
    {
      OnArtboardSnoc(init, p, groups[j].artboardId);
    }
  }

  /** An entry whose artboard has no group opens one at the end. */
  lemma AddOpens(init: seq<Pending>, p: Pending, boards: seq<Artboard>, before: seq<Group>)
    requires Grouped(init, boards, before) && p.tag.artboardId !in GroupIds(before)
    ensures Grouped(init + [p], boards,
      before + [Group(p.tag.artboardId, FindArtboard(boards, p.tag.artboardId), [p])])
  {
    var id := p.tag.artboardId;
    var groups := before + [Group(id, FindArtboard(boards, id), [p])];
    assert GroupIds(groups) == GroupIds(before) + [id];
    OnArtboardNone(init, id);
    forall j | 0 <= j < |groups|
      ensures groups[j].tags == OnArtboard(init + [p], groups[j].artboardId)
    {
      OnArtboardSnoc(init, p, groups[j].artboardId);
    }
  }

  /** One step of the `reduce` keeps the partition. */
  lemma GroupStep(temp: seq<Pending>, boards: seq<Artboard>, before: seq<Group>)
    requires |temp| > 0 && Grouped(temp[..|temp| - 1], boards, before)
    ensures Grouped(temp, boards, AddToGroups(before, temp[|temp| - 1], boards))
  {
    var init := temp[..|temp| - 1];
    var p := temp[|temp| - 1];
    assert temp == init + [p];
    match GroupIndex(before, p.tag.artboardId)
    case Some(i) =>
      AddJoins(init, p, boards, before, i);
    case None =>
      AddOpens(init, p, boards, before);
  }

  /** The `reduce` over `tempTags` that groups the pending entries by
      artboard, groups in the order their artboards first appear. */
  function GroupByArtboard(temp: seq<Pending>, boards: seq<Artboard>): (groups: seq<Group>)
    ensures Grouped(temp, boards, groups)
    decreases |temp|
  {
    if |temp| == 0 then []
    else
      var before := GroupByArtboard(temp[..|temp| - 1], boards);
      GroupStep(temp, boards, before);
      AddToGroups(before, temp[|temp| - 1], boards)
  }

  /** The reconciliation of lines 32-93: drop generated artboards, drop
      tags of deleted strings or artboards, match the rest against pages
      and text elements, and group the matched tags by artboard. The saved
      list only ever loses tags, and every tag it keeps is still backed by
      the document. */
  method Reconcile(stored: seq<Tag>, stringIds: seq<int>, generated: seq<string>,
                   pageBoards: seq<Artboard>, selectedPage: string, pageIds: seq<string>)
    returns (saved: seq<Tag>, groups: seq<Group>)
    ensures IsSubsequence(saved, stored)
    ensures forall t :: t in saved ==> t.stringId in stringIds
    ensures forall t :: t in saved && t.pageId != selectedPage ==> t.pageId in pageIds
    ensures var sc := Scene(selectedPage, pageIds, LiveArtboards(pageBoards, generated));
      forall t :: t in saved && t.pageId == selectedPage ==>
        t.artboardId in Ids(sc.artboards) && Element(t, sc).Some?
    ensures forall i :: 0 <= i < |groups| ==>
      forall p :: p in groups[i].tags ==> p.tag in saved && p.tag.artboardId == groups[i].artboardId
    ensures forall t :: t in saved && t.pageId == selectedPage ==> t.artboardId in GroupIds(groups)
    ensures DistinctIds(groups)
    // a stored tag is saved exactly when it passes both filters
    ensures var live := LiveArtboards(pageBoards, generated);
      var sc := Scene(selectedPage, pageIds, live);
      forall t :: t in saved <==> t in stored && Current(t, stringIds, selectedPage, Ids(live)) && Survives(t, sc)
    // the saved list is the filtered list in order, and the groups
    // partition the matched entries by artboard
    ensures var live := LiveArtboards(pageBoards, generated);
      var sc := Scene(selectedPage, pageIds, live);
      var current := DropObsolete(stored, stringIds, selectedPage, Ids(live));
      saved == Matched(current, sc) && Grouped(Pairs(current, sc), live, groups)
  {
    var live := LiveArtboards(pageBoards, generated);
    var current := DropObsolete(stored, stringIds, selectedPage, Ids(live));
    var sc := Scene(selectedPage, pageIds, live);
    var temp;
    saved, temp := MatchTags(current, sc);
    SubsequenceTrans(saved, current, stored);
    groups := GroupByArtboard(temp, live);
    forall t | t in saved && t.pageId == selectedPage
      ensures t.artboardId in GroupIds(groups)
    {
      assert Pending(t, Element(t, sc).value) in temp;
    }
    forall i, p | 0 <= i < |groups| && p in groups[i].tags
      ensures p.tag in saved
    {
      assert p in temp;
    }
  }
}

=== FILE: settings_actions.dfy ===
/** The getters and savers behind the settings dialog
    (`src/action/settings.js`). Each reads or writes the global store or the
    selected document's store; a saver with no document selected only shows
    a warning. */
module SettingsActions {
  import opened Wrappers
  import opened Constants
  import opened SettingsStore

  /** What the dialog shows and sends back for the account. */
  datatype Credentials = Credentials(token: Option<Value>, organization: Option<Value>)

  /** A key-naming option as the dialog lists it. */
  datatype ShownOption = ShownOption(id: int, name: string, selected: bool)

  /** `getCredentials()`: the stored organization, and the stored token,
      masked when it is a string longer than three characters. */
  function GetCredentials(env: Env): (c: Credentials)
    ensures c.organization == Get(env.global, OrganizationKey)
    ensures var token := Get(env.global, AccessTokenKey);
      if token.Some? && token.value.Text? && |token.value.s| > 3
      then c.token == Some(Text(token.value.s[..3] + "..."))
      else c.token == token
  {
    var token := Get(env.global, AccessTokenKey);
    var shown := match Mask(token)
      case Some(m) => Some(Text(m))
      case None => token;
    Credentials(shown, Get(env.global, OrganizationKey))
  }

  /** `saveCredentials(creds)`: the token is written unless it is exactly
      the mask of the stored token (or both are `undefined`); the
      organization is always written. */
  function SaveCredentials(env: Env, creds: Credentials): (r: Env)
    ensures r.document == env.document
    ensures Get(r.global, OrganizationKey) == creds.organization
    ensures var initial := match Mask(Get(env.global, AccessTokenKey))
        case Some(m) => Some(Text(m))
        case None => None;
      Get(r.global, AccessTokenKey) ==
        if creds.token == initial then Get(env.global, AccessTokenKey) else creds.token
    ensures forall k :: k != AccessTokenKey && k != OrganizationKey ==> Get(r.global, k) == Get(env.global, k)
  {
    var initial := match Mask(Get(env.global, AccessTokenKey))
      case Some(m) => Some(Text(m))
      case None => None;
    var global := if creds.token != initial then Put(env.global, AccessTokenKey, creds.token) else env.global;
    assert AccessTokenKey[8] != OrganizationKey[8];
    env.(global := Put(global, OrganizationKey, creds.organization))
  }

  /** Sending back the credentials the dialog was shown keeps the stored
      token, masked or not, and stores the organization shown. */
  lemma SaveShownCredentials(env: Env)
    ensures var r := SaveCredentials(env, GetCredentials(env));
      && Get(r.global, AccessTokenKey) == Get(env.global, AccessTokenKey)
      && Get(r.global, OrganizationKey) == Get(env.global, OrganizationKey)
  {
  }

  /** `setDocumentSettingForKey` on the selected document, or nothing when
      no document is selected; the global store is never touched. */
  function SaveToDocument(env: Env, key: string, v: Option<Value>): (r: Env)
    ensures r.global == env.global
    ensures env.document.None? ==> r == env
    ensures env.document.Some? ==>
      && r.document.Some?
      && Get(r.document.value, key) == v
      && forall k :: k != key ==> Get(r.document.value, k) == Get(env.document.value, k)
  {
    match env.document
    case None => env
    case Some(doc) => env.(document := Some(Put(doc, key, v)))
  }

  /** `getOverrideTranslations()`: `false` with no document, else the stored
      value as it is. */
  function GetOverrideTranslations(env: Env): (r: Option<Value>)
    ensures env.document.None? ==> r == Some(Flag(false))
    ensures env.document.Some? ==> r == Get(env.document.value, OverrideTranslationsKey)
  {
    match env.document
    case None => Some(Flag(false))
    case Some(doc) => Get(doc, OverrideTranslationsKey)
  }

  /** `saveOverrideTranslations(value)`. */
  function SaveOverrideTranslations(env: Env, value: Option<Value>): (r: Env)
    ensures r.global == env.global
    ensures env.document.None? ==> r == env
    ensures env.document.Some? ==> GetOverrideTranslations(r) == value
    ensures env.document.Some? ==>
      r.document.Some? && forall k :: k != OverrideTranslationsKey ==> Get(r.document.value, k) == Get(env.document.value, k)
  {
    SaveToDocument(env, OverrideTranslationsKey, value)
  }

  /** `getContentSegmentation()`: on with no document or nothing stored,
      else the stored value's truthiness. */
  function GetContentSegmentation(env: Env): (on: bool)
    ensures env.document.None? ==> on
    ensures env.document.Some? ==>
      var v := Get(env.document.value, ContentSegmentationKey);
      on == (v.None? || Truthy(v))
  {
    match env.document
    case None => true
    case Some(doc) =>
      var v := Get(doc, ContentSegmentationKey);
      if v.None? then true else Truthy(v)
  }

  /** `saveContentSegmentation(value)`: stores `!!value`. */
  function SaveContentSegmentation(env: Env, value: Option<Value>): (r: Env)
    ensures r.global == env.global
    ensures env.document.None? ==> r == env
    ensures env.document.Some? ==>
      r.document.Some? && Get(r.document.value, ContentSegmentationKey) == Some(Flag(Truthy(value)))
    ensures env.document.Some? ==>
      r.document.Some? && forall k :: k != ContentSegmentationKey ==> Get(r.document.value, k) == Get(env.document.value, k)
  {
    SaveToDocument(env, ContentSegmentationKey, Some(Flag(Truthy(value))))
  }

  /** Saving content segmentation stores a boolean, which reads back as the
      saved value's truthiness. */
  lemma ContentSegmentationRoundTrip(env: Env, value: Option<Value>)
    requires env.document.Some?
    ensures var r := SaveContentSegmentation(env, value);
      && Get(r.document.value, ContentSegmentationKey) == Some(Flag(Truthy(value)))
      && GetContentSegmentation(r) == Truthy(value)
  {
  }

  /** The key-naming option in force: the stored pattern parsed as an
      integer when it is truthy, else the default; `None` is NaN. */
  function SelectedPattern(env: Env): (r: Option<int>)
    ensures env.document.None? ==> r == Some(DefaultKeyNamingOption)
    ensures env.document.Some? && !Truthy(Get(env.document.value, KeyNamingPatternKey)) ==>
      r == Some(DefaultKeyNamingOption)
    ensures env.document.Some? && Truthy(Get(env.document.value, KeyNamingPatternKey)) ==>
      r == ParseValue(Get(env.document.value, KeyNamingPatternKey).value)
    // a stored non-zero integer is the option in force
    ensures env.document.Some? && Get(env.document.value, KeyNamingPatternKey).Some? ==>
      var v := Get(env.document.value, KeyNamingPatternKey).value;
      v.Number? && v.n != 0 ==> r == Some(v.n)
  {
    match env.document
    case Some(doc) =>
      var v := Get(doc, KeyNamingPatternKey);
      if Truthy(v) then ParseValue(v.value) else Some(DefaultKeyNamingOption)
    case None => Some(DefaultKeyNamingOption)
  }

  /** `getKeyPatternOptions()`: the options in their order, each marked
      selected exactly when its id is the pattern in force. */
  function GetKeyPatternOptions(env: Env): (r: seq<ShownOption>)
    ensures |r| == |KeyNamingOptions|
    ensures forall k :: 0 <= k < |r| ==>
      && r[k].id == KeyNamingOptions[k].id && r[k].name == KeyNamingOptions[k].name
      && (r[k].selected <==> SelectedPattern(env) == Some(KeyNamingOptions[k].id))
  {
    var selected := SelectedPattern(env);
    seq(|KeyNamingOptions|, k requires 0 <= k < |KeyNamingOptions| =>
      ShownOption(KeyNamingOptions[k].id, KeyNamingOptions[k].name, selected == Some(KeyNamingOptions[k].id)))
  }

  /** At most one option is selected, and without a stored pattern it is the
      default, `element_name`. */
  lemma OneOptionSelected(env: Env)
    ensures var r := GetKeyPatternOptions(env);
      forall i, j :: 0 <= i < |r| && 0 <= j < |r| && r[i].selected && r[j].selected ==> i == j
    ensures SelectedPattern(env) == Some(DefaultKeyNamingOption) ==>
      var r := GetKeyPatternOptions(env);
      forall k :: 0 <= k < |r| ==> (r[k].selected <==> k == 15)
  {
    OptionIds();
  }

  /** `saveKeyPatternOption(value)`. */
  function SaveKeyPatternOption(env: Env, value: Option<Value>): (r: Env)
    ensures r.global == env.global
    ensures env.document.None? ==> r == env
    ensures env.document.Some? ==> r.document.Some? && Get(r.document.value, KeyNamingPatternKey) == value
    ensures env.document.Some? ==>
      r.document.Some? && forall k :: k != KeyNamingPatternKey ==> Get(r.document.value, k) == Get(env.document.value, k)
  {
    SaveToDocument(env, KeyNamingPatternKey, value)
  }

  /** Saving an option's id selects exactly that option. */
  lemma KeyPatternRoundTrip(env: Env, id: int)
    requires env.document.Some? && 1 <= id <= 16
    ensures var r := GetKeyPatternOptions(SaveKeyPatternOption(env, Some(Number(id))));
      forall k :: 0 <= k < |r| ==> (r[k].selected <==> k == id - 1)
  {
    OptionIds();
  }

  /** `saveProject(projectId)`. */
  function SaveProject(env: Env, projectId: Option<Value>): (r: Env)
    ensures r.global == env.global
    ensures env.document.None? ==> r == env
    ensures env.document.Some? ==> r.document.Some? && Get(r.document.value, ProjectIdKey) == projectId
    ensures env.document.Some? ==>
      r.document.Some? && forall k :: k != ProjectIdKey ==> Get(r.document.value, k) == Get(env.document.value, k)
  {
    SaveToDocument(env, ProjectIdKey, projectId)
  }

  /** `saveBranch(branchId)`. */
  function SaveBranch(env: Env, branchId: Option<Value>): (r: Env)
    ensures r.global == env.global
    ensures env.document.None? ==> r == env
    ensures env.document.Some? ==> r.document.Some? && Get(r.document.value, BranchIdKey) == branchId
    ensures env.document.Some? ==>
      r.document.Some? && forall k :: k != BranchIdKey ==> Get(r.document.value, k) == Get(env.document.value, k)
  {
    SaveToDocument(env, BranchIdKey, branchId)
  }

  /** With no document selected, none of the document savers changes any
      setting. */
  lemma SaversNeedDocument(env: Env, v: Option<Value>)
    requires env.document.None?
    ensures SaveOverrideTranslations(env, v) == env
    ensures SaveContentSegmentation(env, v) == env
    ensures SaveKeyPatternOption(env, v) == env
    ensures SaveProject(env, v) == env
    ensures SaveBranch(env, v) == env
  {
  }
}

=== FILE: settings_prompts.dfy ===
/** The prompts that connect the plugin to an account and pick a project
    (`src/settings.js`). The user's answer to each prompt is a parameter, as
    is the project list the service returns. */
module SettingsPrompts {
  import opened Wrappers
  import opened Strings
  import opened Numbers
  import opened Constants
  import opened SettingsStore

  /** The callback of an input prompt: an error (the prompt was dismissed)
      or the entered or selected text. */
  datatype Answer = Dismissed | Answered(value: string)

  /** A project of the account. */
  datatype Project = Project(name: string, id: int)

  /** A selection prompt: the labels offered and the one preselected. */
  datatype Prompt = Prompt(possibleValues: seq<string>, initialValue: string)

  /** The environment after a flow, and the error it stopped on, if any
      (the flow catches it and reports it; earlier writes stay). */
  datatype Outcome = Outcome(env: Env, error: Option<string>)

  const NoDocumentError: string := "Please select a document"
  const NoProjectsError: string := "Currently there is not projects to select"

  /** The initial value of the token prompt. */
  function TokenPromptInitial(env: Env): (r: Option<string>)
    ensures var token := Get(env.global, AccessTokenKey);
      r.Some? <==> token.Some? && token.value.Text? && |token.value.s| > 3
    // the initial value is the token's first three characters and `...`
    ensures r.Some? ==> r.value == Get(env.global, AccessTokenKey).value.s[..3] + "..."
  {
    Mask(Get(env.global, AccessTokenKey))
  }

  /** `setAccessToken()`: the answer is stored as the token unless the
      prompt was dismissed or the answer is the masked initial value. */
  function SetAccessToken(env: Env, answer: Answer): (r: Env)
    ensures r.document == env.document
    ensures forall k :: k != AccessTokenKey ==> Get(r.global, k) == Get(env.global, k)
    ensures answer.Dismissed? ==> r == env
    ensures answer.Answered? && Some(answer.value) == TokenPromptInitial(env) ==> r == env
    ensures answer.Answered? && Some(answer.value) != TokenPromptInitial(env) ==>
      Get(r.global, AccessTokenKey) == Some(Text(answer.value))
  {
    match answer
    case Dismissed => env
    case Answered(v) =>
      if Some(v) == TokenPromptInitial(env) then env
      else env.(global := Put(env.global, AccessTokenKey, Some(Text(v))))
  }

  /** `setOrganization()`: the answer is stored unless the prompt was
      dismissed. */
  function SetOrganization(env: Env, answer: Answer): (r: Env)
    ensures r.document == env.document
    ensures forall k :: k != OrganizationKey ==> Get(r.global, k) == Get(env.global, k)
    ensures answer.Dismissed? ==> r == env
    ensures answer.Answered? ==> Get(r.global, OrganizationKey) == Some(Text(answer.value))
  {
    match answer
    case Dismissed => env
    case Answered(v) => env.(global := Put(env.global, OrganizationKey, Some(Text(v))))
  }

  /** `connectToCrowdin()`: the organization prompt, then the token prompt. */
  function ConnectToCrowdin(env: Env, organization: Answer, token: Answer): (r: Env)
    ensures r.document == env.document
    ensures organization.Answered? ==> Get(r.global, OrganizationKey) == Some(Text(organization.value))
    ensures organization.Dismissed? ==> Get(r.global, OrganizationKey) == Get(env.global, OrganizationKey)
    ensures Get(r.global, AccessTokenKey) == Get(SetAccessToken(env, token).global, AccessTokenKey)
    ensures forall k :: k != AccessTokenKey && k != OrganizationKey ==> Get(r.global, k) == Get(env.global, k)
  {
    assert AccessTokenKey[8] != OrganizationKey[8];
    SetAccessToken(SetOrganization(env, organization), token)
  }

  /** Accepting the token prompt's masked initial value keeps the stored
      token. */
  lemma AcceptMaskKeepsToken(env: Env)
    requires TokenPromptInitial(env).Some?
    ensures SetAccessToken(env, Answered(TokenPromptInitial(env).value)) == env
  {
  }

  /** `${name} [${id}]`, the label a project is offered under. */
  function Label(p: Project): string {
    p.name + " [" + Show(p.id) + "]"
  }

  /** The id in a selected label: the text after the last `[` without its
      last character, parsed as an integer; `None` is NaN. */
  function ParseLabel(value: string): Option<int> {
    var parts := Split(value, "[");
    var part := parts[|parts| - 1];
    ParseInt(if |part| == 0 then "" else part[..|part| - 1])
  }

  /** A label reads back as its project's id, whatever `[` the name holds. */
  lemma LabelRoundTrip(p: Project)
    ensures ParseLabel(Label(p)) == Some(p.id)
  {
    var digits := Show(p.id);
    var tail := digits + "]";
    assert Label(p) == (p.name + " ") + ['['] + tail;
    assert NoChar(tail, '[');
    SplitAppend(p.name + " ", '[', tail);
    assert tail[..|tail| - 1] == digits;
    ParseShow(p.id);
  }

  /** The first listed project with the given id. */
  function FindProject(projects: seq<Project>, id: int): (r: Option<Project>)
    ensures r.Some? ==> r.value in projects && r.value.id == id
    ensures r.None? <==> forall p :: p in projects ==> p.id != id
    // the match returned is the first one
    ensures forall k :: (0 <= k < |projects| && projects[k].id == id && forall j :: 0 <= j < k ==> projects[j].id != id) ==>
                        r == Some(projects[k])
    decreases |projects|
  {
    if |projects| == 0 then None
    else if projects[0].id == id then Some(projects[0])
    else
      assert projects == [projects[0]] + projects[1..];
      assert forall k :: 1 <= k < |projects| ==> projects[k] == projects[1..][k - 1];
      FindProject(projects[1..], id)
  }

  /** The preselected label: the stored project's when the stored id is
      truthy, parses, and names a listed project; else the first project's. */
  function InitialLabel(document: Store, projects: seq<Project>): (r: string)
    requires |projects| > 0
    ensures exists k :: 0 <= k < |projects| && r == Label(projects[k])
    ensures !Truthy(Get(document, ProjectIdKey)) ==> r == Label(projects[0])
    // a truthy stored id that parses and names a listed project preselects
    // the first such project's label; any other stored id falls back
    ensures Truthy(Get(document, ProjectIdKey)) && ParseValue(Get(document, ProjectIdKey).value).None? ==>
      r == Label(projects[0])
    ensures Truthy(Get(document, ProjectIdKey)) && ParseValue(Get(document, ProjectIdKey).value).Some? ==>
      var id := ParseValue(Get(document, ProjectIdKey).value).value;
      r == if FindProject(projects, id).Some? then Label(FindProject(projects, id).value) else Label(projects[0])
  {
    var stored := Get(document, ProjectIdKey);
    if Truthy(stored) then
      match ParseValue(stored.value)
      case Some(id) =>
        (match FindProject(projects, id)
         case Some(p) => Label(p)
         case None => Label(projects[0]))
      case None => Label(projects[0])
    else Label(projects[0])
  }

  /** The project prompt of `setProjectIdFromExisting()`, or the error
      thrown before it: no document, or no project to offer. */
  function ProjectPrompt(env: Env, projects: seq<Project>): (r: Result<Prompt, string>)
    ensures env.document.None? ==> r == Failure(NoDocumentError)
    ensures env.document.Some? && projects == [] ==> r == Failure(NoProjectsError)
    ensures r.Success? ==>
      && |r.value.possibleValues| == |projects|
      && (forall k :: 0 <= k < |projects| ==> r.value.possibleValues[k] == Label(projects[k]))
      && r.value.initialValue in r.value.possibleValues
    ensures env.document.Some? && projects != [] ==>
      r == Success(Prompt(seq(|projects|, k requires 0 <= k < |projects| => Label(projects[k])),
                          InitialLabel(env.document.value, projects)))
  {
    match env.document
    case None => Failure(NoDocumentError)
    case Some(doc) =>
      if |projects| == 0 then Failure(NoProjectsError)
      else
        var labels := seq(|projects|, k requires 0 <= k < |projects| => Label(projects[k]));
        Success(Prompt(labels, InitialLabel(doc, projects)))
  }

  /** `setProjectIdFromExisting()`: connect first when the organization or
      token is missing, then offer the projects and store the id parsed
      from the chosen label in the document. */
  function SetProjectIdFromExisting(env: Env, organization: Answer, token: Answer,
                                    projects: seq<Project>, choice: Answer): (r: Outcome)
    ensures var connected := if !Truthy(Get(env.global, OrganizationKey)) || !Truthy(Get(env.global, AccessTokenKey))
        then ConnectToCrowdin(env, organization, token) else env;
      && r.env.global == connected.global
      && (ProjectPrompt(connected, projects).Failure? ==>
            r == Outcome(connected, Some(ProjectPrompt(connected, projects).error)))
      && (choice.Dismissed? ==> r.env == connected)
      && (ProjectPrompt(connected, projects).Success? && choice.Dismissed? ==> r.error.None?)
      && (ProjectPrompt(connected, projects).Success? && choice.Answered? ==>
            r.error.None? && r.env.document.Some? &&
            Get(r.env.document.value, ProjectIdKey) ==
              Some(match ParseLabel(choice.value) case Some(id) => Number(id) case None => NaN) &&
            forall k :: k != ProjectIdKey ==> Get(r.env.document.value, k) == Get(connected.document.value, k))
  {
    var connected := if !Truthy(Get(env.global, OrganizationKey)) || !Truthy(Get(env.global, AccessTokenKey))
      then ConnectToCrowdin(env, organization, token) else env;
    match ProjectPrompt(connected, projects)
    case Failure(e) => Outcome(connected, Some(e))
    case Success(_) =>
      match choice
      case Dismissed => Outcome(connected, None)
      case Answered(v) =>
        var id := match ParseLabel(v) case Some(n) => Number(n) case None => NaN;
        Outcome(connected.(document := Some(Put(connected.document.value, ProjectIdKey, Some(id)))), None)
  }

  /** Choosing a listed project stores its id. */
  lemma ChooseListedProject(env: Env, organization: Answer, token: Answer, projects: seq<Project>, k: nat)
    requires env.document.Some? && k < |projects|
    ensures var r := SetProjectIdFromExisting(env, organization, token, projects, Answered(Label(projects[k])));
      r.error.None? && Get(r.env.document.value, ProjectIdKey) == Some(Number(projects[k].id))
  {
    LabelRoundTrip(projects[k]);
  }

  /** With an empty project list the flow stops before the project prompt
      and leaves the document as it was. */
  lemma NoProjectsNoPrompt(env: Env, organization: Answer, token: Answer, choice: Answer)
    requires env.document.Some?
    ensures var r := SetProjectIdFromExisting(env, organization, token, [], choice);
      r.error == Some(NoProjectsError) && r.env.document == env.document
  {
  }
}

=== FILE: settings_store.dfy ===
/** The host's settings as the settings dialogs see them: a global store and,
    when a document is selected, that document's store. Keys map to the
    JavaScript values the plugin writes. */
module SettingsStore {
  import opened Wrappers
  import opened Numbers

  /** A stored value: a string, an integer, NaN, a boolean or `null`. */
  datatype Value = Text(s: string) | Number(n: int) | NaN | Flag(b: bool) | Null

  /** One settings store. */
  type Store = map<string, Value>

  /** The global store and the selected document's store, if a document is
      selected. */
  datatype Env = Env(global: Store, document: Option<Store>)

  /** `settingForKey(key)`: `None` when unset (`undefined`). */
  function Get(store: Store, key: string): Option<Value> {
    if key in store then Some(store[key]) else None
  }

  /** `setSettingForKey(key, v)`; writing `undefined` leaves the key unset. */
  function Put(store: Store, key: string, v: Option<Value>): (r: Store)
    ensures Get(r, key) == v
    ensures forall k :: k != key ==> Get(r, k) == Get(store, k)
  {
    match v
    case Some(x) => store[key := x]
    case None => store - {key}
  }

  /** JavaScript truthiness (`!!v`). */
  predicate Truthy(v: Option<Value>) {
    match v
    case None => false
    case Some(Text(s)) => s != ""
    case Some(Number(n)) => n != 0
    case Some(NaN) => false
    case Some(Flag(b)) => b
    case Some(Null) => false
  }

  /** `parseInt(v)` for a stored value: its text is parsed, so an integer
      reads as itself and the text of anything else (`true`, `false`,
      `null`, `NaN`) has no digits. */
  function ParseValue(v: Value): (r: Option<int>)
    ensures v.Number? ==> r == Some(v.n)
    ensures v.Flag? || v.Null? || v.NaN? ==> r.None?
  {
    match v
    case Text(s) => ParseInt(s)
    case Number(n) => ParseShow(n); ParseInt(Show(n))
    case _ => None
  }

  /** The masked form of a stored token that both the settings dialog and
      the token prompt show: its first three characters and `...` when it
      is a string longer than three characters, else `undefined`. */
  function Mask(token: Option<Value>): (r: Option<string>)
    ensures r.Some? <==> token.Some? && token.value.Text? && |token.value.s| > 3
    ensures r.Some? ==> |r.value| == 6 && r.value[..3] == token.value.s[..3] && r.value[3..] == "..."
  {
    match token
    case Some(Text(s)) => if |s| > 3 then Some(s[..3] + "...") else None
    case _ => None
  }
}

=== FILE: strings.dfy ===
/** JavaScript's `String.prototype.split` and `Array.prototype.join` with a
    non-empty string separator, on strings as sequences of characters. */
module Strings {
  import opened Wrappers

  /** `sep` occurs in `s` starting at index `i`. */
  predicate OccursAt(s: string, sep: string, i: int) {
    0 <= i && i + |sep| <= |s| && s[i..i + |sep|] == sep
  }

  /** `s.indexOf(sep)`: the first index at which `sep` occurs, if any. */
  function IndexOf(s: string, sep: string): (r: Option<nat>)
    requires |sep| > 0
    ensures r.Some? ==> OccursAt(s, sep, r.value)
    decreases |s|
  {
    if |s| < |sep| then None
    else if s[..|sep|] == sep then Some(0)
    else
      match IndexOf(s[1..], sep)
      case None => None
      case Some(k) =>
        assert s[1..][k..k + |sep|] == s[k + 1..k + 1 + |sep|];
        Some(k + 1)
  }

  /** A match starts with the separator's first character, so a separator
      whose first character does not occur is not found. */
  lemma IndexOfFirstChar(s: string, sep: string)
    requires |sep| > 0
    ensures IndexOf(s, sep).Some? ==> s[IndexOf(s, sep).value] == sep[0]
    ensures NoChar(s, sep[0]) ==> IndexOf(s, sep).None?
  {
    if IndexOf(s, sep).Some? {
      var i := IndexOf(s, sep).value;
      assert s[i..i + |sep|][0] == s[i];
    }
  }

  /** A match found in a prefix is the match in the whole string. */
  lemma {:induction false} IndexOfPrefix(a: string, rest: string, sep: string)
    requires |sep| > 0 && IndexOf(a, sep).Some?
    ensures IndexOf(a + rest, sep) == IndexOf(a, sep)
    decreases |a|
  {
    var u := a + rest;
    assert u[..|sep|] == a[..|sep|];
    if a[..|sep|] != sep {
      assert u[1..] == a[1..] + rest;
      IndexOfPrefix(a[1..], rest, sep);
    }
  }

  /** With no one-character separator in `a`, the first one in
      `a + [c] + rest` is the one right after `a`. */
  lemma {:induction false} IndexOfAfter(a: string, c: char, rest: string)
    requires IndexOf(a, [c]).None?
    ensures IndexOf(a + [c] + rest, [c]) == Some(|a|)
    decreases |a|
  {
    var u := a + [c] + rest;
    if |a| > 0 {
      assert u[..1] == a[..1];
      assert u[1..] == a[1..] + [c] + rest;
      IndexOfAfter(a[1..], c, rest);
    } else {
      assert u[..1] == [c];
    }
  }

  /** `s.split(sep)`: the pieces between the occurrences of `sep`, scanning
      from the left. There is always at least one piece. */
  function Split(s: string, sep: string): (parts: seq<string>)
    requires |sep| > 0
    ensures |parts| >= 1
    decreases |s|
  {
    match IndexOf(s, sep)
    case None => [s]
    case Some(i) => [s[..i]] + Split(s[i + |sep|..], sep)
  }

  /** `parts.join(sep)`. */
  function Join(parts: seq<string>, sep: string): string
    decreases |parts|
  {
    if |parts| == 0 then ""
    else if |parts| == 1 then parts[0]
    else parts[0] + sep + Join(parts[1..], sep)
  }

  /** Splitting and joining again with the same separator gives back the
      original string. */
  lemma {:induction false} JoinSplit(s: string, sep: string)
    requires |sep| > 0
    ensures Join(Split(s, sep), sep) == s
    decreases |s|
  {
    match IndexOf(s, sep)
    case None =>
    case Some(i) =>
      var rest := s[i + |sep|..];
      var parts := Split(s, sep);
      assert parts == [s[..i]] + Split(rest, sep);
      assert parts[1..] == Split(rest, sep);
      assert Join(parts, sep) == s[..i] + sep + Join(Split(rest, sep), sep);
      JoinSplit(rest, sep);
      assert s == s[..i] + s[i..i + |sep|] + rest;
  }

  /** `s` does not contain the character `c`. */
  predicate NoChar(s: string, c: char) {
    forall i :: 0 <= i < |s| ==> s[i] != c
  }

  /** Joining pieces that do not contain a one-character separator and
      splitting again gives back the pieces. */
  lemma {:induction false} SplitJoin(parts: seq<string>, c: char)
    requires |parts| >= 1
    requires forall k :: 0 <= k < |parts| ==> NoChar(parts[k], c)
    ensures Split(Join(parts, [c]), [c]) == parts
    decreases |parts|
  {
    if |parts| == 1 {
      CharFree(parts[0], c);
    } else {
      var tail := Join(parts[1..], [c]);
      var s := parts[0] + [c] + tail;
      assert Join(parts, [c]) == s;
      CharFree(parts[0], c);
      IndexOfAfter(parts[0], c, tail);
      assert s[..|parts[0]|] == parts[0];
      assert s[|parts[0]| + 1..] == tail;
      SplitJoin(parts[1..], c);
    }
  }

  /** Every piece of a split avoids a character the whole string avoids. */
  lemma {:induction false} SplitNoChar(s: string, sep: string, c: char)
    requires |sep| > 0 && NoChar(s, c)
    ensures forall k :: 0 <= k < |Split(s, sep)| ==> NoChar(Split(s, sep)[k], c)
    decreases |s|
  {
    match IndexOf(s, sep)
    case None =>
    case Some(i) =>
      SplitNoChar(s[i + |sep|..], sep, c);
  }

  /** Appending a separator and a piece without it adds exactly that piece
      at the end of the split. */
  lemma {:induction false} SplitAppend(s: string, c: char, t: string)
    requires NoChar(t, c)
    ensures Split(s + [c] + t, [c]) == Split(s, [c]) + [t]
    decreases |s|
  {
    var u := s + [c] + t;
    match IndexOf(s, [c])
    case None =>
      SplitAppendToLast(s, c, t);
    case Some(i) =>
      IndexOfPrefix(s, [c] + t, [c]);
      assert u == s + ([c] + t);
      assert u[..i] == s[..i];
      var v := s[i + 1..];
      assert u[i + 1..] == v + [c] + t;
      SplitAppend(v, c, t);
      assert Split(u, [c]) == [s[..i]] + Split(v + [c] + t, [c]);
      assert Split(s, [c]) == [s[..i]] + Split(v, [c]);
  }

  lemma SplitAppendToLast(s: string, c: char, t: string)
    requires NoChar(t, c) && IndexOf(s, [c]).None?
    ensures Split(s + [c] + t, [c]) == [s, t]
  {
    var u := s + [c] + t;
    IndexOfAfter(s, c, t);
    assert u[..|s|] == s;
    assert u[|s| + 1..] == t;
    CharFree(t, c);
  }

  /** The text before the first occurrence of `sep` contains no `sep`. */
  lemma {:induction false} IndexOfPrefixFree(s: string, sep: string)
    requires |sep| > 0 && IndexOf(s, sep).Some?
    ensures IndexOf(s[..IndexOf(s, sep).value], sep).None?
    decreases |s|
  {
    var i := IndexOf(s, sep).value;
    if s[..|sep|] != sep {
      IndexOfPrefixFree(s[1..], sep);
      var p := s[..i];
      if |p| >= |sep| {
        assert p[..|sep|] == s[..|sep|];
        assert p[1..] == s[1..][..i - 1];
      }
    }
  }

  /** No piece of a split contains the separator. */
  lemma {:induction false} SplitPiecesFree(s: string, sep: string)
    requires |sep| > 0
    ensures forall k :: 0 <= k < |Split(s, sep)| ==> IndexOf(Split(s, sep)[k], sep).None?
    decreases |s|
  {
    match IndexOf(s, sep)
    case None =>
    case Some(i) =>
      IndexOfPrefixFree(s, sep);
      SplitPiecesFree(s[i + |sep|..], sep);
  }

  /** A string without `c` has no one-character `c` separator in it, and
      conversely. */
  lemma {:induction false} CharFree(s: string, c: char)
    ensures IndexOf(s, [c]).None? <==> NoChar(s, c)
    decreases |s|
  {
    if |s| > 0 {
      assert s[..1] == [c] <==> s[0] == c by {
        assert s[..1][0] == s[0];
      }
      CharFree(s[1..], c);
      assert NoChar(s, c) <==> s[0] != c && NoChar(s[1..], c) by {
        assert forall i :: 0 < i < |s| ==> s[i] == s[1..][i - 1];
      }
    }
  }

  /** With no `=>` in `a`, the first `=>` in `a + "=>" + rest` is the one right
      after `a`: a trailing `=` of `a` cannot pair with the separator's own `=`. */
  lemma {:induction false} ArrowAfter(a: string, rest: string)
    requires IndexOf(a, "=>").None?
    ensures IndexOf(a + "=>" + rest, "=>") == Some(|a|)
    decreases |a|
  {
    var u := a + "=>" + rest;
    if |a| == 0 {
      assert u[..2] == "=>";
    } else {
      if |a| >= 2 {
        assert u[..2] == a[..2];
        assert IndexOf(a[1..], "=>").None?;
      } else {
        assert u[1] == '=';
      }
      assert u[1..] == a[1..] + "=>" + rest;
      ArrowAfter(a[1..], rest);
    }
  }

  /** Two pieces without `=>`, joined by it, split back into the two. */
  lemma ArrowSplitJoin(a: string, b: string)
    requires IndexOf(a, "=>").None? && IndexOf(b, "=>").None?
    ensures Split(a + "=>" + b, "=>") == [a, b]
  {
    var u := a + "=>" + b;
    ArrowAfter(a, b);
    assert u[..|a|] == a;
    assert u[|a| + 2..] == b;
  }
}

=== FILE: text_util.dfy ===
/** Shortening of a text to a one-line label (`src/util/string.js`). */
module TextUtil {
  import opened Wrappers
  import opened Strings

  /** Longest label kept without cutting. */
  const MaxLength: nat := 50

  /** The text up to its first line break: a reference definition that does
      not go through `split`. */
  function FirstLine(s: string): (line: string)
    ensures NoChar(line, '\n')
    ensures |line| <= |s| && line == s[..|line|]
    ensures |line| < |s| ==> s[|line|] == '\n'
    decreases |s|
  {
    if |s| == 0 || s[0] == '\n' then ""
    else
      var rest := FirstLine(s[1..]);
      assert [s[0]] + rest == [s[0]] + s[1..][..|rest|] == s[..|rest| + 1];
      [s[0]] + rest
  }

  /** A prefix without line breaks that ends at a line break or at the end
      is the first line. */
  lemma {:induction false} FirstLineUnique(s: string, p: string)
    requires NoChar(p, '\n') && |p| <= |s| && p == s[..|p|] && (|p| < |s| ==> s[|p|] == '\n')
    ensures FirstLine(s) == p
    decreases |s|
  {
    if |s| > 0 && s[0] != '\n' && |p| > 0 {
      FirstLineUnique(s[1..], p[1..]);
      assert p == [s[0]] + p[1..];
    }
  }

  /** The first piece of a split on line breaks is the first line, and there
      is a second piece exactly when the text holds a line break. */
  lemma SplitFirstLine(s: string)
    ensures Split(s, "\n")[0] == FirstLine(s)
    ensures |Split(s, "\n")| > 1 <==> !NoChar(s, '\n')
  {
    CharFree(s, '\n');
    match IndexOf(s, "\n")
    case None =>
      FirstLineUnique(s, s);
    case Some(i) =>
      IndexOfPrefixFree(s, "\n");
      CharFree(s[..i], '\n');
      assert s[i..i + 1] == "\n";
      FirstLineUnique(s, s[..i]);
  }

  /** `truncateLongText(str)`: the first line of `str || ''`, cut to 47
      characters plus `...` when longer than 50, or followed by `...` when
      more lines follow. */
  function TruncateLongText(str: Option<string>): (r: string)
    ensures str.None? ==> r == ""
    ensures NoChar(r, '\n')
    ensures var s := str.GetOr(""); var line := FirstLine(s);
      && (|line| > MaxLength ==> |r| == MaxLength && r == line[..MaxLength - 3] + "...")
      && (|line| <= MaxLength && !NoChar(s, '\n') ==> r == line + "..." && |r| <= MaxLength + 3)
      && (|s| <= MaxLength && NoChar(s, '\n') ==> r == s)
  {
    var s := str.GetOr("");
    var lines := Split(s, "\n");
    SplitFirstLine(s);
    var result := lines[0];
    if |result| > MaxLength then result[..MaxLength - 3] + "..."
    else if |lines| > 1 then result + "..."
    else result
  }

  /** The label always starts with the first line's first characters: all
      of them, or 47 when the line is longer than 50. */
  lemma TruncateKeepsLineStart(str: Option<string>)
    ensures var line := FirstLine(str.GetOr(""));
      var n := if |line| > MaxLength then MaxLength - 3 else |line|;
      n <= |TruncateLongText(str)| && TruncateLongText(str)[..n] == line[..n]
  {
    var s := str.GetOr("");
    var line := FirstLine(s);
    var r := TruncateLongText(str);
    if |line| <= MaxLength && NoChar(s, '\n') {
      FirstLineUnique(s, s);
    }
  }
}

=== FILE: wrappers.dfy ===
/** Optional values and fallible results, used in place of JavaScript's
    `undefined` and of thrown exceptions. */
module Wrappers {

  /** A value that may be absent (`undefined` in the source). */
  datatype Option<+T> = None | Some(value: T) {

    /** The value, or `default` when absent. */
    function GetOr(default: T): T {
      match this
      case Some(v) => v
      case None => default
    }
  }

  /** The outcome of an operation that may throw. */
  datatype Result<+T, +E> = Success(value: T) | Failure(error: E)
}

=== FILE: zip_entry.dfy ===
/** One ZIP entry: its name, extra field and comment setters, the CRC check,
    the `decompress` dispatch and the `setData`/`getData` pair.

    Two collaborators the entry relies on are not part of this model and
    enter as parameters: the local file header that `loadDataHeaderFromBinary`
    reads from the archive (`LocalHeader`), and the DEFLATE inflater
    (`inflate`). */
module ZipEntry {
  import opened Wrappers
  import opened Bytes
  import opened Crc32
  import opened ZipExtra

  /** Compression methods (section 4.4.5 of the PKWARE .ZIP File Format
      Specification). */
  const Stored: nat := 0
  const Deflated: nat := 8

  /** The ASCII codes of `/` and `\`, which mark a directory name. */
  const Slash: Byte := 47
  const Backslash: Byte := 92

  /** What `loadDataHeaderFromBinary` reads from the local file header: where
      the entry's data starts in the archive and the CRC recorded there. */
  datatype LocalHeader = LocalHeader(realDataOffset: nat, crc: Word)

  /** The entry's state. `input` is the archive the entry was read from, if
      any; `uncompressed` is the buffer last passed to `setData` (the source's
      `null` before any call reads as the empty buffer, and is only returned
      once `changed` is set, which happens together with a `setData`). */
  datatype Entry = Entry(
    header: Header,
    local: LocalHeader,
    rawName: seq<Byte>,
    isDirectory: bool,
    extra: seq<Byte>,
    comment: seq<Byte>,
    input: Option<seq<Byte>>,
    uncompressed: seq<Byte>)

  /** The error strings the source reports. */
  datatype Condition = DirectoryContentError | NoData | BadCrc | UnknownMethod

  /** What the synchronous `decompress` returns: a buffer (with `warned` set
      when it printed the CRC warning), or an error string. */
  datatype Decoded = Data(bytes: seq<Byte>, warned: bool) | Marker(condition: Condition)

  /** The arguments the asynchronous `decompress` passes to its callback. */
  datatype Delivery = Delivery(bytes: seq<Byte>, condition: Option<Condition>)

  /** Bit 3 of the general-purpose flags: sizes and CRC follow the data in a
      data descriptor (section 4.4.4 of the PKWARE .ZIP File Format
      Specification), so the local header's CRC is not to be trusted. */
  predicate HasDataDescriptor(flags: nat) {
    (flags / 8) % 2 == 1
  }

  /** `crc32OK(data)`. */
  predicate Crc32Ok(e: Entry, data: seq<Byte>) {
    HasDataDescriptor(e.header.flags) || Checksum(data) == e.local.crc
  }

  /** `crc32OK(data)` as the source computes it: with the data descriptor
      flag set it accepts anything; otherwise it runs the table-driven CRC-32
      over the data and compares with the local header's CRC. */
  method CheckCrc(e: Entry, data: seq<Byte>) returns (ok: bool)
    ensures HasDataDescriptor(e.header.flags) ==> ok
    ensures !HasDataDescriptor(e.header.flags) ==> (ok <==> Checksum(data) == e.local.crc)
  {
    if e.header.flags / 8 % 2 != 1 {
      var crc := ComputeChecksum(data);
      if crc != e.local.crc {
        return false;
      }
    }
    return true;
  }

  /** `getCompressedDataFromZip()`: the entry's compressed bytes, sliced out
      of the archive with `Buffer.slice`'s clamping; nothing without an
      archive. */
  function CompressedData(e: Entry): (r: seq<Byte>)
    ensures e.input.None? ==> r == []
    ensures e.input.Some? && e.local.realDataOffset + e.header.compressedSize <= |e.input.value|
            ==> r == e.input.value[e.local.realDataOffset..e.local.realDataOffset + e.header.compressedSize]
  {
    match e.input
    case None => []
    case Some(archive) =>
      Slice(archive, e.local.realDataOffset, e.local.realDataOffset + e.header.compressedSize)
  }

  /** `Buffer.alloc(n)` followed by `src.copy(buf)`: `n` bytes, the first ones
      copied from `src` and the rest zero. */
  function FitTo(src: seq<Byte>, n: nat): (r: seq<Byte>)
    ensures |r| == n
    ensures forall i :: 0 <= i < n && i < |src| ==> r[i] == src[i]
    ensures forall i :: |src| <= i < n ==> r[i] == 0
  {
    if n <= |src| then src[..n] else src + seq(n - |src|, _ => 0)
  }

  /** The synchronous `decompress(false)`. */
  function Decompress(e: Entry, inflate: seq<Byte> -> seq<Byte>): Decoded {
    if e.isDirectory then Data([], false)
    else
      var compressed := CompressedData(e);
      if |compressed| == 0 then Data([], false)
      else if e.header.compression == Stored then
        var data := FitTo(compressed, e.header.size);
        if !Crc32Ok(e, data) then Marker(BadCrc) else Data(data, false)
      else if e.header.compression == Deflated then
        var data := FitTo(inflate(compressed), e.header.size);
        Data(data, !Crc32Ok(e, data))
      else Marker(UnknownMethod)
  }

  /** The asynchronous `decompress(true, callback)`: what the callback
      receives. */
  function DecompressAsync(e: Entry, inflate: seq<Byte> -> seq<Byte>): Delivery {
    if e.isDirectory then Delivery([], Some(DirectoryContentError))
    else
      var compressed := CompressedData(e);
      if |compressed| == 0 then Delivery([], Some(NoData))
      else if e.header.compression == Stored || e.header.compression == Deflated then
        var source := if e.header.compression == Stored then compressed else inflate(compressed);
        var data := FitTo(source, e.header.size);
        Delivery(data, if Crc32Ok(e, data) then None else Some(BadCrc))
      else Delivery([], Some(UnknownMethod))
  }

  /** A directory decodes to an empty buffer; asynchronously, with the
      directory error. */
  lemma DecompressDirectory(e: Entry, inflate: seq<Byte> -> seq<Byte>)
    requires e.isDirectory
    ensures Decompress(e, inflate) == Data([], false)
    ensures DecompressAsync(e, inflate) == Delivery([], Some(DirectoryContentError))
  {
  }

  /** An entry whose compressed slice is empty (or that has no archive)
      decodes to an empty buffer; asynchronously, with the no-data error. */
  lemma DecompressNoData(e: Entry, inflate: seq<Byte> -> seq<Byte>)
    requires !e.isDirectory
    requires e.input.None? || e.local.realDataOffset >= |e.input.value| || e.header.compressedSize == 0
    ensures Decompress(e, inflate) == Data([], false)
    ensures DecompressAsync(e, inflate) == Delivery([], Some(NoData))
  {
  }

  /** A method other than STORED and DEFLATED yields the unknown-method
      error, and the callback an empty buffer. */
  lemma DecompressUnknownMethod(e: Entry, inflate: seq<Byte> -> seq<Byte>)
    requires !e.isDirectory && |CompressedData(e)| > 0
    requires e.header.compression != Stored && e.header.compression != Deflated
    ensures Decompress(e, inflate) == Marker(UnknownMethod)
    ensures DecompressAsync(e, inflate) == Delivery([], Some(UnknownMethod))
  {
  }

  /** STORED: the output has the header's size; it starts with the compressed
      slice and is padded with zeros. A CRC mismatch turns the synchronous
      result into the bad-CRC error, while the callback still receives the
      data together with that error. */
  lemma DecompressStored(e: Entry, inflate: seq<Byte> -> seq<Byte>)
    requires !e.isDirectory && |CompressedData(e)| > 0
    requires e.header.compression == Stored
    ensures var data := DecompressAsync(e, inflate).bytes;
      && |data| == e.header.size
      && (forall i :: 0 <= i < |data| && i < |CompressedData(e)| ==> data[i] == CompressedData(e)[i])
      && (forall i :: |CompressedData(e)| <= i < |data| ==> data[i] == 0)
      && (Decompress(e, inflate) == Marker(BadCrc) <==> !Crc32Ok(e, data))
      && (Decompress(e, inflate) != Marker(BadCrc) ==> Decompress(e, inflate) == Data(data, false))
      && (DecompressAsync(e, inflate).condition == Some(BadCrc) <==> !Crc32Ok(e, data))
  {
  }

  /** DEFLATED, synchronously: the inflated bytes fitted to the header's size
      are returned whether or not the CRC matches; a mismatch only warns. */
  lemma DecompressDeflated(e: Entry, inflate: seq<Byte> -> seq<Byte>)
    requires !e.isDirectory && |CompressedData(e)| > 0
    requires e.header.compression == Deflated
    ensures Decompress(e, inflate).Data?
    ensures Decompress(e, inflate).bytes == FitTo(inflate(CompressedData(e)), e.header.size)
    ensures Decompress(e, inflate).warned <==> !Crc32Ok(e, Decompress(e, inflate).bytes)
  {
  }

  /** An entry stored whole, with its true size and CRC in the headers, reads
      back as exactly the bytes stored, from wherever they sit in the
      archive. */
  lemma StoredRoundTrip(e: Entry, inflate: seq<Byte> -> seq<Byte>, before: seq<Byte>, content: seq<Byte>, after: seq<Byte>)
    requires !e.isDirectory && e.header.compression == Stored
    requires !HasDataDescriptor(e.header.flags)
    requires e.input == Some(before + content + after)
    requires e.local.realDataOffset == |before|
    requires e.header.compressedSize == |content| == e.header.size > 0
    requires e.local.crc == Checksum(content)
    ensures Decompress(e, inflate) == Data(content, false)
    ensures DecompressAsync(e, inflate) == Delivery(content, None)
  {
    assert CompressedData(e) == content by {
      assert (before + content + after)[|before|..|before| + |content|] == content;
    }
    assert FitTo(content, |content|) == content;
  }

  /** The same entry with a CRC in its local header that does not match the
      bytes stored is rejected by the synchronous call. */
  lemma StoredCorruptRejected(e: Entry, inflate: seq<Byte> -> seq<Byte>, before: seq<Byte>, content: seq<Byte>, after: seq<Byte>)
    requires !e.isDirectory && e.header.compression == Stored
    requires !HasDataDescriptor(e.header.flags)
    requires e.input == Some(before + content + after)
    requires e.local.realDataOffset == |before|
    requires e.header.compressedSize == |content| == e.header.size > 0
    requires e.local.crc != Checksum(content)
    ensures Decompress(e, inflate) == Marker(BadCrc)
    ensures DecompressAsync(e, inflate) == Delivery(content, Some(BadCrc))
  {
    assert CompressedData(e) == content by {
      assert (before + content + after)[|before|..|before| + |content|] == content;
    }
    assert FitTo(content, |content|) == content;
  }

  /** A STORED entry whose local header records the CRC-32 of its content,
      read from an archive in which one byte of that content has changed, is
      rejected: the synchronous call returns the marker and the callback is
      told of the bad CRC. */
  lemma StoredChangedByteRejected(e: Entry, inflate: seq<Byte> -> seq<Byte>, before: seq<Byte>, content: seq<Byte>,
                                  after: seq<Byte>, i: nat, b: Byte)
    requires !e.isDirectory && e.header.compression == Stored
    requires !HasDataDescriptor(e.header.flags)
    requires i < |content| && b != content[i]
    requires e.input == Some(before + content[i := b] + after)
    requires e.local.realDataOffset == |before|
    requires e.header.compressedSize == |content| == e.header.size
    requires e.local.crc == Checksum(content)
    ensures Decompress(e, inflate) == Marker(BadCrc)
    ensures DecompressAsync(e, inflate) == Delivery(content[i := b], Some(BadCrc))
  {
    ChecksumDetectsChange(content, i, b);
    StoredCorruptRejected(e, inflate, before, content[i := b], after);
  }

  /** The `entryName` setter: the raw name, its length in the header, and
      the directory flag. */
  function SetEntryName(e: Entry, name: seq<Byte>): (r: Entry)
    // a name is a directory exactly when it ends with a slash or a backslash
    ensures r.isDirectory <==> |name| > 0 && (name[|name| - 1] == Slash || name[|name| - 1] == Backslash)
    ensures r.rawName == name && r.header.fileNameLength == |name|
    ensures r == e.(rawName := name, isDirectory := r.isDirectory,
                    header := e.header.(fileNameLength := |name|))
  {
    var isDirectory := if |name| == 0 then false else
      var lastChar := name[|name| - 1];
      lastChar == Slash || lastChar == Backslash;
    e.(rawName := name, isDirectory := isDirectory,
       header := e.header.(fileNameLength := |name|))
  }

  /** The `extra` setter: the field and its length are stored, then the
      field is parsed into the header. When the parse throws, the entry is
      left as the failure carries it. */
  function SetExtra(e: Entry, val: seq<Byte>): (r: Result<Entry, Entry>)
    ensures var s := if r.Success? then r.value else r.error;
      && s.extra == val && s.header.extraLength == |val|
      && s.header == Outcome(ParseExtra(e.header.(extraLength := |val|), val))
      && s == e.(extra := val, header := s.header)
  {
    var stored := e.header.(extraLength := |val|);
    ParseExtraFrame(stored, val);
    match ParseExtra(stored, val)
    case Success(h) => Success(e.(extra := val, header := h))
    case Failure(t) => Failure(e.(extra := val, header := t.partial))
  }

  /** `setData(value)`: a non-empty buffer on a file entry becomes the
      entry's data, to be deflated; otherwise only the method is set to
      STORED. */
  function SetData(e: Entry, value: seq<Byte>): Entry {
    if !e.isDirectory && |value| > 0 then
      e.(uncompressed := value,
         header := e.header.(size := |value|, compression := Deflated,
                             crc := Checksum(value), changed := true))
    else
      e.(uncompressed := value, header := e.header.(compression := Stored))
  }

  /** `getData()`: the buffer given to `setData` once the entry has changed,
      and the decoded archive data before. */
  function GetData(e: Entry, inflate: seq<Byte> -> seq<Byte>): Decoded {
    if e.header.changed then Data(e.uncompressed, false) else Decompress(e, inflate)
  }

  /** `getDataAsync(callback)`: what the callback receives. */
  function GetDataAsync(e: Entry, inflate: seq<Byte> -> seq<Byte>): Delivery {
    if e.header.changed then Delivery(e.uncompressed, None) else DecompressAsync(e, inflate)
  }

  /** After `setData` with a non-empty buffer on a file entry, the header
      describes that buffer and `getData` returns exactly it, whatever the
      archive held. */
  lemma SetDataThenGetData(e: Entry, value: seq<Byte>, inflate: seq<Byte> -> seq<Byte>)
    requires !e.isDirectory && |value| > 0
    ensures var r := SetData(e, value);
      && r.header.size == |value| && r.header.compression == Deflated
      && r.header.crc == Checksum(value) && r.header.changed
      && GetData(r, inflate) == Data(value, false)
      && GetDataAsync(r, inflate) == Delivery(value, None)
  {
  }

  /** On a directory, or with an empty buffer, `setData` sets the method to
      STORED and changes no other header field; in particular it does not set
      `changed`, so an unchanged entry still reads from the archive. */
  lemma SetDataStoredOnly(e: Entry, value: seq<Byte>, inflate: seq<Byte> -> seq<Byte>)
    requires e.isDirectory || |value| == 0
    ensures SetData(e, value).header == e.header.(compression := Stored)
    ensures !e.header.changed ==>
      GetData(SetData(e, value), inflate) == Decompress(e.(uncompressed := value, header := e.header.(compression := Stored)), inflate)
  {
  }
}

=== FILE: zip_extra.dfy ===
/** The ZIP entry's extra field: a walk over `(id: u16, size: u16, payload)`
    records (section 4.5.1 of the PKWARE .ZIP File Format Specification) that
    hands every Zip64 extended-information record (section 4.5.3) to an
    override of the entry header's size, compressed size, offset and starting
    disk. */
module ZipExtra {
  import opened Wrappers
  import opened Bytes

  /** Header ID of the Zip64 extended-information record. */
  const IdZip64: nat := 0x0001

  /** Offsets inside a Zip64 payload: uncompressed size, compressed size,
      local header offset, starting disk number. The source also uses each of
      the last three as the payload length the previous field needs. */
  const Zip64SizeAt: nat := 0
  const Zip64CompressedSizeAt: nat := 8
  const Zip64OffsetAt: nat := 16
  const Zip64DiskAt: nat := 24

  /** The values that announce "see the Zip64 record" in a 32-bit and a
      16-bit header field. */
  const Sentinel32: nat := 0xFFFF_FFFF
  const Sentinel16: nat := 0xFFFF

  /** The header fields the Zip64 record can override, plus the rest of the
      central-directory header that the entry keeps (which the override must
      leave alone). */
  datatype Header = Header(
    flags: nat,
    compression: nat,
    crc: Word,
    size: nat,
    compressedSize: nat,
    offset: nat,
    diskNumStart: nat,
    fileNameLength: nat,
    extraLength: nat,
    commentLength: nat,
    changed: bool)

  /** `buf.readUInt16LE(off)`. */
  function ReadUInt16LE(p: seq<Byte>, off: nat): (v: nat)
    requires off + 2 <= |p|
    ensures v < 0x1_0000
  {
    p[off] as nat + 0x100 * p[off + 1] as nat
  }

  /** `buf.readUInt32LE(off)`. */
  function ReadUInt32LE(p: seq<Byte>, off: nat): (v: nat)
    requires off + 4 <= |p|
    ensures v < 0x1_0000_0000
  {
    ReadUInt16LE(p, off) + 0x1_0000 * ReadUInt16LE(p, off + 2)
  }

  /** An unsigned little-endian 64-bit integer: low word first. */
  function ReadUInt64LE(p: seq<Byte>, off: nat): (v: nat)
    requires off + 8 <= |p|
    ensures v < 0x1_0000_0000_0000_0000
  {
    ReadUInt32LE(p, off) + 0x1_0000_0000 * ReadUInt32LE(p, off + 4)
  }

  /** The reader as the source writes it, `(hi << 4) + lo`: JavaScript's `<<`
      truncates `hi` to a signed 32-bit integer, shifts by four bits and
      truncates again, so the high word is multiplied by 16 modulo 2^32 and
      read back with a sign, instead of being multiplied by 2^32. */
  function ReadUInt64LEAsWritten(p: seq<Byte>, off: nat): int
    requires off + 8 <= |p|
  {
    var shifted := (ReadUInt32LE(p, off + 4) * 16) % 0x1_0000_0000;
    var signed := if shifted < 0x8000_0000 then shifted else shifted - 0x1_0000_0000;
    signed + ReadUInt32LE(p, off)
  }

  /** Little-endian encoding of a 16-bit value. */
  function EncodeUInt16LE(v: nat): (p: seq<Byte>)
    requires v < 0x1_0000
    ensures |p| == 2
  {
    [v % 0x100, v / 0x100]
  }

  /** Little-endian encoding of a 32-bit value. */
  function EncodeUInt32LE(v: nat): (p: seq<Byte>)
    requires v < 0x1_0000_0000
    ensures |p| == 4
  {
    EncodeUInt16LE(v % 0x1_0000) + EncodeUInt16LE(v / 0x1_0000)
  }

  /** Little-endian encoding of a 64-bit value. */
  function EncodeUInt64LE(v: nat): (p: seq<Byte>)
    requires v < 0x1_0000_0000_0000_0000
    ensures |p| == 8
  {
    EncodeUInt32LE(v % 0x1_0000_0000) + EncodeUInt32LE(v / 0x1_0000_0000)
  }

  lemma ReadEncoded16(v: nat, p: seq<Byte>, off: nat)
    requires v < 0x1_0000
    requires off + 2 <= |p| && p[off..off + 2] == EncodeUInt16LE(v)
    ensures ReadUInt16LE(p, off) == v
  {
    assert p[off] == p[off..off + 2][0];
    assert p[off + 1] == p[off..off + 2][1];
  }

  lemma ReadEncoded32(v: nat, p: seq<Byte>, off: nat)
    requires v < 0x1_0000_0000
    requires off + 4 <= |p| && p[off..off + 4] == EncodeUInt32LE(v)
    ensures ReadUInt32LE(p, off) == v
  {
    assert p[off..off + 2] == p[off..off + 4][..2];
    assert p[off + 2..off + 4] == p[off..off + 4][2..];
    ReadEncoded16(v % 0x1_0000, p, off);
    ReadEncoded16(v / 0x1_0000, p, off + 2);
  }

  /** The corrected reader inverts the little-endian encoding of every 64-bit
      value. */
  lemma ReadEncoded64(v: nat)
    requires v < 0x1_0000_0000_0000_0000
    ensures ReadUInt64LE(EncodeUInt64LE(v), 0) == v
  {
    var p := EncodeUInt64LE(v);
    assert p[0..4] == EncodeUInt32LE(v % 0x1_0000_0000);
    assert p[4..8] == EncodeUInt32LE(v / 0x1_0000_0000);
    ReadEncoded32(v % 0x1_0000_0000, p, 0);
    ReadEncoded32(v / 0x1_0000_0000, p, 4);
  }

  /** The reader as written does not invert the encoding: the 64-bit value
      2^32 (high word 1, low word 0) reads back as 16. */
  lemma ReadUInt64LEAsWrittenMisreads()
    ensures ReadUInt64LEAsWritten(EncodeUInt64LE(0x1_0000_0000), 0) == 16
    ensures ReadUInt64LE(EncodeUInt64LE(0x1_0000_0000), 0) == 0x1_0000_0000
  {
    ReadEncoded64(0x1_0000_0000);
    var p := EncodeUInt64LE(0x1_0000_0000);
    assert p == [0, 0, 0, 0, 1, 0, 0, 0];
  }

  /** `buf.slice(start, end)` of a Node.js `Buffer`: both bounds are clamped to
      the buffer, and a range that ends before it starts is empty. */
  function Slice(p: seq<Byte>, start: nat, end: nat): (r: seq<Byte>)
    ensures start <= end <= |p| ==> r == p[start..end]
    ensures start >= |p| || end <= start ==> r == []
    ensures |r| <= |p|
  {
    var lo := if start < |p| then start else |p|;
    var hi := if end < |p| then end else |p|;
    if hi <= lo then [] else p[lo..hi]
  }

  /** `parseZip64ExtendedInformation`: each of the four fields is replaced by
      its value from the payload when the field holds its sentinel and the
      payload is long enough to have reached the next field. */
  function ParseZip64(h: Header, p: seq<Byte>): (r: Header)
    // nothing but the four Zip64 fields changes
    ensures r == h.(size := r.size, compressedSize := r.compressedSize,
                    offset := r.offset, diskNumStart := r.diskNumStart)
    // a field that does not hold its sentinel is never touched
    ensures h.size != Sentinel32 ==> r.size == h.size
    ensures h.compressedSize != Sentinel32 ==> r.compressedSize == h.compressedSize
    ensures h.offset != Sentinel32 ==> r.offset == h.offset
    ensures h.diskNumStart != Sentinel16 ==> r.diskNumStart == h.diskNumStart
    // a payload too short to hold a field leaves it alone
    ensures |p| < Zip64CompressedSizeAt ==> r == h
    ensures |p| < Zip64OffsetAt ==> r.compressedSize == h.compressedSize
    ensures |p| < Zip64DiskAt ==> r.offset == h.offset
    ensures |p| < Zip64DiskAt + 4 ==> r.diskNumStart == h.diskNumStart
  {
    var h1 :=
      if |p| >= Zip64CompressedSizeAt && h.size == Sentinel32
      then h.(size := ReadUInt64LE(p, Zip64SizeAt)) else h;
    var h2 :=
      if |p| >= Zip64OffsetAt && h1.compressedSize == Sentinel32
      then h1.(compressedSize := ReadUInt64LE(p, Zip64CompressedSizeAt)) else h1;
    var h3 :=
      if |p| >= Zip64DiskAt && h2.offset == Sentinel32
      then h2.(offset := ReadUInt64LE(p, Zip64OffsetAt)) else h2;
    if |p| >= Zip64DiskAt + 4 && h3.diskNumStart == Sentinel16
    then h3.(diskNumStart := ReadUInt32LE(p, Zip64DiskAt)) else h3
  }

  /** A full Zip64 payload written for a header whose four fields all hold
      their sentinels hands back exactly the four values written. */
  lemma Zip64Overrides(h: Header, size: nat, compressedSize: nat, offset: nat, disk: nat)
    requires h.size == Sentinel32 && h.compressedSize == Sentinel32
    requires h.offset == Sentinel32 && h.diskNumStart == Sentinel16
    requires size < 0x1_0000_0000_0000_0000 && compressedSize < 0x1_0000_0000_0000_0000
    requires offset < 0x1_0000_0000_0000_0000 && disk < 0x1_0000_0000
    ensures ParseZip64(h, EncodeUInt64LE(size) + EncodeUInt64LE(compressedSize)
                          + EncodeUInt64LE(offset) + EncodeUInt32LE(disk))
         == h.(size := size, compressedSize := compressedSize,
               offset := offset, diskNumStart := disk)
  {
    var p := EncodeUInt64LE(size) + EncodeUInt64LE(compressedSize)
           + EncodeUInt64LE(offset) + EncodeUInt32LE(disk);
    assert p[0..8] == EncodeUInt64LE(size);
    assert p[8..16] == EncodeUInt64LE(compressedSize);
    assert p[16..24] == EncodeUInt64LE(offset);
    assert p[24..28] == EncodeUInt32LE(disk);
    ReadEncodedAt64(size, p, 0);
    ReadEncodedAt64(compressedSize, p, 8);
    ReadEncodedAt64(offset, p, 16);
    ReadEncoded32(disk, p, 24);
  }

  lemma ReadEncodedAt64(v: nat, p: seq<Byte>, off: nat)
    requires v < 0x1_0000_0000_0000_0000
    requires off + 8 <= |p| && p[off..off + 8] == EncodeUInt64LE(v)
    ensures ReadUInt64LE(p, off) == v
  {
    var q := p[off..off + 8];
    assert p[off..off + 4] == q[0..4];
    assert p[off + 4..off + 8] == q[4..8];
    ReadEncoded32(v % 0x1_0000_0000, p, off);
    ReadEncoded32(v / 0x1_0000_0000, p, off + 4);
  }

  /** Applying the same Zip64 record twice is applying it once: an overridden
      field either no longer holds its sentinel or was overridden with the
      sentinel itself. */
  lemma Zip64Idempotent(h: Header, p: seq<Byte>)
    ensures ParseZip64(ParseZip64(h, p), p) == ParseZip64(h, p)
  {
  }

  /** The bytes from `offset` on; none once the offset has run past the end. */
  function Rest(data: seq<Byte>, offset: nat): (r: seq<Byte>)
    ensures offset <= |data| ==> r == data[offset..]
    ensures offset >= |data| ==> r == []
  {
    if offset <= |data| then data[offset..] else []
  }

  /** Why `parseExtra` stopped early: a 16-bit read ran past the end of the
      field and threw. `partial` is the header as the records before it left
      it, since the source updates the header in place as it goes. */
  datatype Truncation = Truncation(partial: Header)

  /** `parseExtra(data)`: read a record's id and declared size, hand its
      payload to the Zip64 override when the id is the Zip64 one, and carry
      on past the declared size. */
  function ParseExtra(h: Header, data: seq<Byte>): Result<Header, Truncation>
    decreases |data|
  {
    if |data| == 0 then Success(h)
    else if |data| < 4 then Failure(Truncation(h))
    else
      var id := ReadUInt16LE(data, 0);
      var size := ReadUInt16LE(data, 2);
      var next := if id == IdZip64 then ParseZip64(h, Slice(data, 4, 4 + size)) else h;
      ParseExtra(next, Rest(data, 4 + size))
  }

  /** The header an extra-field parse leaves behind, whether it threw or not. */
  function Outcome(r: Result<Header, Truncation>): Header {
    match r
    case Success(h) => h
    case Failure(t) => t.partial
  }

  /** `parseExtra`, thrown or not, changes no header field other than the
      four Zip64 ones. */
  lemma {:induction false} ParseExtraFrame(h: Header, data: seq<Byte>)
    ensures var r := Outcome(ParseExtra(h, data));
      r == h.(size := r.size, compressedSize := r.compressedSize,
              offset := r.offset, diskNumStart := r.diskNumStart)
    decreases |data|
  {
    if |data| >= 4 {
      var size := ReadUInt16LE(data, 2);
      var next := if ReadUInt16LE(data, 0) == IdZip64 then ParseZip64(h, Slice(data, 4, 4 + size)) else h;
      ParseExtraFrame(next, Rest(data, 4 + size));
    }
  }

  /** One `(id, size, payload)` record of the extra field. `payload` is what
      the source's `data.slice(offset, offset + size)` yields, which is
      shorter than `size` when the field ends early. */
  datatype Record = Record(id: nat, payload: seq<Byte>)

  /** The records the walker reads, and whether it stopped because a read ran
      past the end of the field. */
  datatype Scan = Scan(records: seq<Record>, truncated: bool)

  /** The records of an extra field, read front to back as `parseExtra`
      reads them. */
  function ScanRecords(data: seq<Byte>): (s: Scan)
    ensures |s.records| <= |data| / 4
    decreases |data|
  {
    if |data| == 0 then Scan([], false)
    else if |data| < 4 then Scan([], true)
    else
      var size := ReadUInt16LE(data, 2);
      var tail := ScanRecords(Rest(data, 4 + size));
      Scan([Record(ReadUInt16LE(data, 0), Slice(data, 4, 4 + size))] + tail.records, tail.truncated)
  }

  /** The header after the Zip64 records among `rs` are applied in order. */
  function ApplyRecords(h: Header, rs: seq<Record>): Header
    decreases |rs|
  {
    if |rs| == 0 then h
    else
      var next := if rs[0].id == IdZip64 then ParseZip64(h, rs[0].payload) else h;
      ApplyRecords(next, rs[1..])
  }

  /** `parseExtra` applies exactly the Zip64 records of the field, in order,
      and throws exactly when the record scan runs off the end. */
  lemma {:induction false} ParseExtraAppliesRecords(h: Header, data: seq<Byte>)
    ensures var s := ScanRecords(data);
      ParseExtra(h, data)
        == if s.truncated then Failure(Truncation(ApplyRecords(h, s.records)))
           else Success(ApplyRecords(h, s.records))
    decreases |data|
  {
    if |data| >= 4 {
      var size := ReadUInt16LE(data, 2);
      var r := Record(ReadUInt16LE(data, 0), Slice(data, 4, 4 + size));
      var next := if r.id == IdZip64 then ParseZip64(h, r.payload) else h;
      var tail := ScanRecords(Rest(data, 4 + size));
      ParseExtraAppliesRecords(next, Rest(data, 4 + size));
      assert ([r] + tail.records)[1..] == tail.records;
    }
  }

  /** Little-endian encoding of one record, with its true payload length. */
  function EncodeRecord(r: Record): (p: seq<Byte>)
    requires r.id < 0x1_0000 && |r.payload| < 0x1_0000
    ensures |p| == 4 + |r.payload|
  {
    EncodeUInt16LE(r.id) + EncodeUInt16LE(|r.payload|) + r.payload
  }

  /** Records whose id and length fit the 16-bit fields. */
  predicate Encodable(rs: seq<Record>) {
    forall i :: 0 <= i < |rs| ==> rs[i].id < 0x1_0000 && |rs[i].payload| < 0x1_0000
  }

  function EncodeRecords(rs: seq<Record>): seq<Byte>
    requires Encodable(rs)
    decreases |rs|
  {
    if |rs| == 0 then [] else EncodeRecord(rs[0]) + EncodeRecords(rs[1..])
  }

  /** The walker reads back exactly the records an extra field was written
      from: each record is skipped by its declared size. */
  lemma {:induction false} ScanEncoded(rs: seq<Record>)
    requires Encodable(rs)
    ensures ScanRecords(EncodeRecords(rs)) == Scan(rs, false)
    decreases |rs|
  {
    if |rs| > 0 {
      var r := rs[0];
      var data := EncodeRecords(rs);
      var rest := EncodeRecords(rs[1..]);
      assert data == EncodeRecord(r) + rest;
      assert data[0..2] == EncodeUInt16LE(r.id);
      assert data[2..4] == EncodeUInt16LE(|r.payload|);
      ReadEncoded16(r.id, data, 0);
      ReadEncoded16(|r.payload|, data, 2);
      assert data[4..4 + |r.payload|] == r.payload;
      assert data[4 + |r.payload|..] == rest;
      ScanEncoded(rs[1..]);
    }
  }

  /** Without a Zip64 record among those read, `parseExtra` leaves the header
      as it was, whether or not it throws. */
  lemma NoZip64Unchanged(h: Header, data: seq<Byte>)
    requires forall i :: 0 <= i < |ScanRecords(data).records| ==>
               ScanRecords(data).records[i].id != IdZip64
    ensures Outcome(ParseExtra(h, data)) == h
  {
    ParseExtraAppliesRecords(h, data);
    ApplyWithoutZip64(h, ScanRecords(data).records);
  }

  lemma {:induction false} ApplyWithoutZip64(h: Header, rs: seq<Record>)
    requires forall i :: 0 <= i < |rs| ==> rs[i].id != IdZip64
    ensures ApplyRecords(h, rs) == h
    decreases |rs|
  {
    if |rs| > 0 {
      ApplyWithoutZip64(h, rs[1..]);
    }
  }

  /** One turn of the source's loop, at byte offset `start`. */
  lemma ParseExtraStep(hd: Header, data: seq<Byte>, start: nat, signature: nat, size: nat,
                       part: seq<Byte>, next: nat)
    requires start + 4 <= |data|
    requires signature == ReadUInt16LE(data, start) && size == ReadUInt16LE(data, start + 2)
    requires part == Slice(data, start + 4, start + 4 + size) && next == start + 4 + size
    ensures ParseExtra(hd, Rest(data, start))
         == ParseExtra(if signature == IdZip64 then ParseZip64(hd, part) else hd, Rest(data, next))
  {
    var rest := data[start..];
    assert ReadUInt16LE(rest, 0) == signature;
    assert ReadUInt16LE(rest, 2) == size;
    assert Slice(rest, 4, 4 + size) == part;
    assert Rest(rest, 4 + size) == Rest(data, next);
  }

  /** Fewer than four bytes left: the walker throws with the header as is. */
  lemma ParseExtraShort(hd: Header, data: seq<Byte>, offset: nat)
    requires offset < |data| < offset + 4
    ensures ParseExtra(hd, Rest(data, offset)) == Failure(Truncation(hd))
  {
  }

  /** `parseExtra` as the source writes it: a loop over a byte offset that
      reads two 16-bit fields, skips the payload by its declared size, and
      applies every Zip64 payload to the header as it goes. A 16-bit read past
      the end throws, after the earlier records have been applied. */
  method ParseExtraWalk(h: Header, data: seq<Byte>) returns (r: Result<Header, Truncation>)
    ensures r == ParseExtra(h, data)
  {
    var header := h;
    var offset: nat := 0;
    while offset < |data|
      invariant ParseExtra(h, data) == ParseExtra(header, Rest(data, offset))
      decreases |data| - offset
    {
      var start := offset;
      if offset + 2 > |data| {
        ParseExtraShort(header, data, start);
        return Failure(Truncation(header));
      }
      var signature := ReadUInt16LE(data, offset);
      offset := offset + 2;
      if offset + 2 > |data| {
        ParseExtraShort(header, data, start);
        return Failure(Truncation(header));
      }
      var size := ReadUInt16LE(data, offset);
      offset := offset + 2;
      var part := Slice(data, offset, offset + size);
      offset := offset + size;
      ParseExtraStep(header, data, start, signature, size, part, offset);
      header := if signature == IdZip64 then ParseZip64(header, part) else header;
    }
    return Success(header);
  }

  /** A record whose payload reaches the first 64-bit read of the Zip64
      parser: a Zip64 record of at least eight bytes. */
  predicate ReachesReader(r: Record) {
    r.id == IdZip64 && |r.payload| >= Zip64CompressedSizeAt
  }

  /** `parseZip64ExtendedInformation` as written. Its first `readUInt64LE`
      call evaluates `Buffer.readUInt32LE(offset)`, a static method that a
      Node.js `Buffer` does not have, so a payload of eight bytes or more
      throws a `TypeError` before any field is written. A shorter payload
      reaches no read and leaves the header alone. The failure carries the
      header as it stands when the call throws. */
  function ParseZip64AsWritten(h: Header, p: seq<Byte>): (r: Result<Header, Header>)
    ensures r.Failure? <==> |p| >= Zip64CompressedSizeAt
    ensures r == Success(h) || r == Failure(h)
  {
    if |p| >= Zip64CompressedSizeAt then Failure(h) else Success(h)
  }

  /** `parseExtra` over the as-written Zip64 parser; a failure is the
      exception the setter sees (a `RangeError` from a short tail, or the
      `TypeError` above), with the header as it stands then. */
  function ParseExtraAsWritten(h: Header, data: seq<Byte>): Result<Header, Header>
    decreases |data|
  {
    if |data| == 0 then Success(h)
    else if |data| < 4 then Failure(h)
    else
      var id := ReadUInt16LE(data, 0);
      var size := ReadUInt16LE(data, 2);
      var next := if id == IdZip64 then ParseZip64AsWritten(h, Slice(data, 4, 4 + size)) else Success(h);
      match next
      case Failure(partial) => Failure(partial)
      case Success(h') => ParseExtraAsWritten(h', Rest(data, 4 + size))
  }

  /** As written, `parseExtra` never changes the header, and it completes
      exactly when the field is not truncated and no Zip64 record in it is
      long enough to reach the 64-bit reader. */
  lemma {:induction false} ParseExtraAsWrittenNeverOverrides(h: Header, data: seq<Byte>)
    ensures var r := ParseExtraAsWritten(h, data);
      r == Success(h) || r == Failure(h)
    ensures var s := ScanRecords(data);
      ParseExtraAsWritten(h, data).Success? <==>
        !s.truncated && forall r :: r in s.records ==> !ReachesReader(r)
    decreases |data|
  {
    if |data| >= 4 {
      var size := ReadUInt16LE(data, 2);
      var rest := Rest(data, 4 + size);
      var rec := Record(ReadUInt16LE(data, 0), Slice(data, 4, 4 + size));
      var tail := ScanRecords(rest);
      assert ScanRecords(data) == Scan([rec] + tail.records, tail.truncated);
      assert ParseExtraAsWritten(h, data)
          == if ReachesReader(rec) then Failure(h) else ParseExtraAsWritten(h, rest);
      if !ReachesReader(rec) {
        ParseExtraAsWrittenNeverOverrides(h, rest);
      }
    }
  }

  /** The input that shows it: an extra field holding one Zip64 record with
      an 8-byte size, for a header whose size holds the sentinel. The
      corrected parser installs the size; as written the setter throws and
      the header keeps the sentinel. */
  lemma Zip64SizeRecordThrowsAsWritten(h: Header, v: nat)
    requires h.size == Sentinel32 && v < 0x1_0000_0000_0000_0000
    ensures var data := EncodeRecords([Record(IdZip64, EncodeUInt64LE(v))]);
      && ParseExtraAsWritten(h, data) == Failure(h)
      && ParseExtra(h, data) == Success(h.(size := v))
  {
    var rec := Record(IdZip64, EncodeUInt64LE(v));
    var data := EncodeRecords([rec]);
    ScanEncoded([rec]);
    ParseExtraAsWrittenNeverOverrides(h, data);
    ParseExtraAppliesRecords(h, data);
    ReadEncoded64(v);
    assert ApplyRecords(h, [rec]) == ApplyRecords(ParseZip64(h, rec.payload), []);
  }
}
